=== FILE: README.md ===
# folder-synchronization, modelled in Dafny

This project models the core of a one-way folder mirror written in Python.

`sync_folders` makes a replica folder follow a source folder in three steps:

1. It creates the replica root when it is missing.
2. It walks the source. For every file it creates the replica parent directories, then submits a copy when the replica file is absent or its MD5 digest differs.
3. It walks the replica bottom-up. It removes every file whose relative path is absent from the source, and every such directory that is empty by the time it is checked.

Its helpers are also modelled:

- `compute_md5` hashes a file in 4096-byte chunks.
- `copy_file` copies a file and then checks both digests.
- `count_deletions` counts the replica entries the source lacks.

The model also covers the configuration layer:

- `validate_config` runs an ordered chain of checks on the settings dictionary.
- The block of `load_config` that lets command-line options override the file's settings.

The filesystem is an abstract tree (`FsTree`):

- A map from relative paths (sequences of names) to `File(content)` or `Dir`.
- The root is the empty path and is implicit.
- A tree is well formed when every entry hangs from a directory.

`Synchronizer.Mirror` is a class. It holds the source tree, the replica tree and whether the replica root exists. Its methods update the replica in place with the same loops as the Python code. Each method is proved against closed-form specifications in `SyncSpec`:

- `CopyState` and `AfterCopy` for the copy phase.
- `Prune`, `Pruned` and `Refusals` for the deletion walk.
- `Orphans` for the counter.

`SyncProperties` proves what a completed run promises, and what a second run does. `Config` models the configuration layer. Its filesystem is a set of directory path strings and a set of other existing path strings; a directory exists too. `os.path.dirname` is written out, and a key other than the six the program reads can never be confused with one of them.

The model reproduces these behaviours of the code:

- **Kind-agnostic orphan test.** A path counts as present in the source whatever kind of entry is there. A replica file where the source has a directory is therefore never removed or replaced (`KindMismatchKept`).
- **A replica file exactly where a source file's parent directory belongs.** The code leaves it in place:
  - The replica path then "does not exist", so a copy is submitted.
  - The worker's copy fails, and the failure is never retrieved from the future.
  - The source file is never delivered, on this run or on any later one (`BlockedPersists`, `SecondRunSchedules`).
- **An exception that escapes the run.** A replica directory where the source has a file, or a replica file higher up a source file's path, raises in the main thread. The run then ends before any deletion (`SyncFolders`, `Aborted`).
- **Empty source directories are never created in the replica.**
- **Refused removals.** A removal the operating system refuses is logged, and the walk goes on. Its ancestors then stay, because they are not empty.
- **Idempotence.** After a run without such an exception, a second run raises nothing and leaves the replica as it is. It submits again only the blocked files, whose copies fail again (`SecondRunNoop`).

Where the documentation and the code differ, the model follows the code:

- `sync_interval` and `max_workers` accept `true`, because `bool` is a subclass of `int` (`PositiveInt`).
- A second run is not free of copies when a file is blocked.

## Model

| member | source | states |
|---|---|---|
| Md5.Hasher.Update | src/synchronizer.py:27 | `hasher.update(chunk)` leaves the state covering the chunk after what it held |
| Md5.Read | src/synchronizer.py:26 | `f.read(4096)` on a regular file returns the bytes at the current offset: exactly 4096 when that many remain, the rest of the file otherwise, none at the end |
| Md5.FeedIsConcat | src/synchronizer.py:26-27 | feeding a list of chunks to the hasher leaves it as if their concatenation had been fed at once, so the digest depends only on the content, not on how it was split |
| Md5.ComputeMd5 | src/synchronizer.py:13-28 | the hexdigest of the file's whole content, reached by feeding it chunk by chunk (the loop keeps the hasher equal to feeding the chunks read so far, each of at most 4096 bytes, whose concatenation is the content read so far); opening raises NotADirectoryError when a file lies above the path, else IsADirectoryError on a directory (the root included), else FileNotFoundError on a missing path |
| FsTree.Listdir | src/synchronizer.py:140 | `os.listdir` of a directory yields exactly the entries whose parent is that directory, and nothing else |
| FsTree.WithDirs | src/synchronizer.py:105-106 | after making directories, every existing entry is unchanged and every missing path asked for is a new directory |
| FsTree.AddDirWellFormed | src/synchronizer.py:106 | a new directory inside a directory keeps the tree well formed |
| FsTree.PutFileWellFormed | src/synchronizer.py:40 | writing a file inside a directory, over nothing or over a file, keeps the tree well formed |
| FsTree.MakeDirsBlocked | src/synchronizer.py:106 | when `os.makedirs` meets a file on the way, that file lies strictly above the target and nothing was created before it |
| FsTree.AncestorIsDir | src/synchronizer.py:102-106 | in a well-formed tree every proper ancestor of an entry is a directory |
| FsTree.FileIsLeaf | src/synchronizer.py:127 | a file has no entries below it, so removing it leaves no entry without its directory |
| Synchronizer.Mirror.MakeDirs | src/synchronizer.py:106 | `os.makedirs` of a missing replica parent creates every missing prefix as a directory, or raises NotADirectoryError and creates nothing, exactly when a replica file lies on the way |
| Synchronizer.Mirror.CopyFile | src/synchronizer.py:31-45 | the replica gets the source content exactly when the replica parent is a directory; otherwise the copy raises, NotADirectoryError when a file lies above the path and FileNotFoundError else, and nothing changes; the integrity check never fails |
| Synchronizer.Mirror.MakeParent | src/synchronizer.py:102-106 | the replica parent of a source file is made with all its intermediates; it raises exactly when a replica file lies strictly above the parent, and then changes nothing |
| Synchronizer.Mirror.CompareAndCopy | src/synchronizer.py:109-110 | a copy is submitted exactly when the replica path is absent or holds a file with another digest; it raises IsADirectoryError exactly on a replica directory; the copy lands only when the parent is a directory |
| Synchronizer.Mirror.ProcessFile | src/synchronizer.py:98-113 | one source file moves the replica from the copy state of the files handled before to the state with this file handled, or raises exactly on a conflict at this file, leaving the state before this file or the state with only its parent directories made |
| Synchronizer.Mirror.CopyPhase | src/synchronizer.py:97-113 | the copy phase raises exactly when some source file conflicts with the replica; otherwise the replica is `AfterCopy` and the submitted copies are exactly the scheduled files; no replica entry disappears; on a raise the replica is the copy state of some handled files, none of them in conflict, plus the parent directories of at most one more source file, which is the one in conflict |
| Synchronizer.Mirror.CheckFile | src/synchronizer.py:119-131 | a replica file is removed exactly when its source path is absent and the removal is allowed; an error is logged exactly when the removal is refused |
| Synchronizer.Mirror.CheckDir | src/synchronizer.py:133-146 | a replica directory is removed exactly when its source path is absent, it is empty at check time, and the removal is allowed; an error is logged exactly when that removal is refused |
| Synchronizer.Mirror.CheckFileStep | src/synchronizer.py:119-131 | checking one more file of a visited directory extends the pruned state by that file and the refusal log by its refusal, if any |
| Synchronizer.Mirror.CheckDirStep | src/synchronizer.py:133-146 | checking one more subdirectory, after everything below it, extends the pruned state by that directory and the refusal log by its refusal, if any |
| Synchronizer.Mirror.RemoveOrphanFiles | src/synchronizer.py:119-131 | every file of one visited directory is checked, and a refused removal does not stop the others; the refusals returned are exactly those among these files |
| Synchronizer.Mirror.RemoveEmptyOrphanDirs | src/synchronizer.py:133-146 | every subdirectory of one visited directory is checked after everything below it; the refusals returned are exactly those among these subdirectories |
| Synchronizer.Mirror.VisitDir | src/synchronizer.py:118-146 | one `dirpath` of the bottom-up walk, once every directory below it is visited: its files, then its subdirectories, are checked, which extends the pruned state by its entries; the refusals returned are exactly those among its entries |
| Synchronizer.Mirror.DeletePhase | src/synchronizer.py:118-146 | the bottom-up walk leaves the replica as `Pruned` (removes exactly the entries absent from the source with no refused removal in their subtree, themselves included) and logs exactly the `Refusals` |
| Synchronizer.Mirror.CountMissing | src/synchronizer.py:61-66 | the number of given entries whose source path does not exist |
| Synchronizer.Mirror.CountDeletions | src/synchronizer.py:48-74 | the count is the number of replica entries (files and directories, root excluded) whose path the source lacks under any kind; zero when the replica root is missing |
| Synchronizer.Mirror.SyncFolders | src/synchronizer.py:77-146 | the replica root exists afterwards (lines 88-89 set the root flag of the tree); the run raises exactly when the source conflicts with the replica, and then removes nothing and leaves the copy state of the conflict-free files handled before the raise, plus at most the parent directories of the conflicting file; otherwise the replica is the pruned copy-phase result, and the run reports the scheduled copies, the orphan count as the deletion total, and the refused removals |
| SyncSpec.SourceFiles | src/synchronizer.py:97-99 | the walk visits only source files |
| SyncSpec.Orphans | src/synchronizer.py:65 | exactly the replica entries whose path the source lacks |
| SyncSpec.WalkDirs | src/synchronizer.py:118 | the walk visits the root and every replica directory, and nothing else |
| SyncSpec.FilesIn | src/synchronizer.py:119 | the `filenames` of a visited directory are exactly the files directly in it |
| SyncSpec.SubdirsIn | src/synchronizer.py:133 | the `dirnames` of a visited directory are exactly the directories directly in it |
| SyncSpec.DirsForAreSourceDirs | src/synchronizer.py:102-106 | every directory created for a source file's parent is a directory of the source |
| SyncSpec.ParentStep | src/synchronizer.py:102-106 | making the next file's parent in the copy state fails exactly on a replica file above the parent, and otherwise reaches the state where that file's parents are made |
| SyncSpec.FileStep | src/synchronizer.py:109-110 | once the parents are made, the replica shows the file as it was before the run, and comparing and copying reaches the state where the file is handled |
| SyncSpec.FileAttempted | src/synchronizer.py:125 | the walk tries to remove a file exactly when its source path is absent |
| SyncSpec.DirAttempted | src/synchronizer.py:140 | the walk tries to remove a directory exactly when its source path is absent and everything it held was removed first |
| SyncSpec.ListdirAfterPrune | src/synchronizer.py:140 | once its entries are checked, a directory is empty exactly when all of them were removed |
| SyncSpec.RemoveLeafWellFormed | src/synchronizer.py:127 | removing an entry that holds nothing keeps the tree well formed |
| SyncSpec.WalkCoversTree | src/synchronizer.py:118-119 | the entries of the replica are exactly the files and subdirectories of the directories the walk visits |
| SyncSpec.DeepestExists | src/synchronizer.py:118 | a non-empty set of unvisited directories has one with no unvisited directory below it, so the bottom-up walk can always go on |
| SyncSpec.CountCovers | src/synchronizer.py:59-74 | the missing entries counted over all visited directories are the orphans |
| SyncProperties.AfterCopyAt | src/synchronizer.py:97-113 | after the copy phase, each path holds the source content if its copy landed, else the old replica entry, else a created directory |
| SyncProperties.CopiedWellFormed | src/synchronizer.py:97-113 | without a conflict, the replica after the copy phase is a well-formed tree |
| SyncProperties.SourcePathsKept | src/synchronizer.py:125 | a replica entry whose path exists in the source is never removed |
| SyncProperties.SyncedFileMatches | src/synchronizer.py:97-113 | after a run, every source file whose replica parent is not a file is a replica file with the source's digest |
| SyncProperties.SyncedFileEqual | src/synchronizer.py:109-110 | with an injective digest, every such file has exactly the source content |
| SyncProperties.BlockedPersists | src/synchronizer.py:102-110 | a source file whose replica parent is a file is not delivered, and the blocking file stays |
| SyncProperties.NeededDirsExist | src/synchronizer.py:102-106 | after a run, every directory a source file needs is a replica directory, unless a replica file sits there |
| SyncProperties.EmptySourceDirNotMirrored | src/synchronizer.py:97-106 | a source directory with no file below it is not created in the replica |
| SyncProperties.OrphanRemoved | src/synchronizer.py:118-146 | a replica entry whose path the source lacks is removed unless a removal in its subtree is refused |
| SyncProperties.RemovalIsConservative | src/synchronizer.py:140-142 | an entry is removed only when the source lacks its path, the removal is allowed, and nothing is left below it |
| SyncProperties.PrunedWellFormed | src/synchronizer.py:118-146 | the replica after the deletion walk is a well-formed tree |
| SyncProperties.KindMismatchKept | src/synchronizer.py:125-127 | a replica file where the source has a directory survives the run unchanged |
| SyncProperties.DeletionCountBound | src/synchronizer.py:116-117 | the walk removes only counted orphans, no more than the progress total, and exactly the orphans when nothing is refused |
| SyncProperties.PrunedWithin | src/synchronizer.py:118-146 | the replica at the end of the run is the copy-phase replica with some entries removed |
| SyncProperties.AboveFileAfterRun | src/synchronizer.py:102-106 | above a source file the run leaves what the replica had there, or a new directory |
| SyncProperties.NoConflictAfterRun | src/synchronizer.py:97-113 | a run without a conflict leaves a replica without a conflict |
| SyncProperties.BlockedAfterRun | src/synchronizer.py:102-110 | a source file is blocked after the run exactly when it was blocked before |
| SyncProperties.SecondRunSchedules | src/synchronizer.py:109-110 | a second run submits exactly the blocked files |
| SyncProperties.CopyFixpoint | src/synchronizer.py:97-113 | a second copy phase leaves the replica unchanged |
| SyncProperties.PruneFixpoint | src/synchronizer.py:118-146 | a second deletion walk with the same refusals leaves the replica unchanged |
| SyncProperties.SecondRunNoop | src/synchronizer.py:77-146 | after a run without a conflict, a second run raises nothing, submits only the blocked files, and leaves the replica as it is |
| Config.Get | src/config.py:24-46 | `config.get(key, default)` yields the stored value when the key is present and the default otherwise |
| Config.Exists | src/config.py:31 | `os.path.exists` is false on the empty path, true on every path `os.path.isdir` accepts, and true on every other existing path |
| Config.IsDir | src/config.py:24-27 | `os.path.isdir` is true only on a non-empty string naming a directory; it raises TypeError on values that are neither strings nor integers |
| Config.AfterLastSlash | src/config.py:30 | the position just after the last '/', or 0 when there is none |
| Config.TrimTrailingSlashes | src/config.py:30 | `rstrip('/')`: a prefix of the input that does not end with '/' and keeps every character that is not '/' |
| Config.Dirname | src/config.py:30-31 | `os.path.dirname`: a prefix of the path, empty exactly when the path holds no '/' (a bare file name) |
| Config.ValidateConfig | src/config.py:13-49 | returns True exactly when every check passes; otherwise the first failing check, in source order, decides the error (source folder, replica folder, log directory, interval, worker count, level) |
| Config.ApplyOverrides | src/config.py:77-91 | the settings after the overrides are `Merged`: each truthy option wins for its key, and every other key keeps the file's value |
| Config.ApplyPathOverrides | src/config.py:78-83 | the three path options applied one after another give the merge under those options |
| Config.ApplyNumberOverrides | src/config.py:84-89 | the remaining three options applied after them give the merge under all six |
| Config.FirstOptionsStep | src/config.py:78-89 | applying the next option after the ones before it is one map update, or none when the option is not truthy |
| Config.OneMoreOption | src/config.py:78-89 | supplying one more option changes the merge only at that option's key |
| Config.MergedAt | src/config.py:78-89 | a truthy option decides its key; keys no option supplies keep the file's value, or stay absent |
| Config.ZeroDoesNotOverride | src/config.py:84-87 | an explicit 0 for the interval, or for the worker count, each on its own, does not override the file: that key keeps the file's value or stays absent |
| Config.NoOptionsKeepsFile | src/config.py:77-91 | without options the file's settings are used unchanged |
| Config.MergedIdempotent | src/config.py:78-89 | applying the same options twice gives the same settings as once |
| Config.SourceCheckedFirst | src/config.py:24-27 | a config without a source folder is rejected for its source folder, whatever else is wrong |
| Config.BareLogNamePasses | src/config.py:30-32 | a bare log file name, or no log path, passes the log check, so validation never rejects it for a missing log directory |
| Config.MissingIntervalRejected | src/config.py:35-37 | a missing interval defaults to 0 and is rejected once the earlier checks pass |
| Config.MissingWorkersRejected | src/config.py:40-42 | a missing worker count defaults to 0 and is rejected once the earlier checks pass |
| Config.LowercaseLevelRejected | src/config.py:45-47 | once the earlier checks pass, a missing level, a non-string level, or any name holding a lower-case letter is rejected for its logging level |

## Left out

- The thread pool (`ThreadPoolExecutor`) is not modelled. Copies are made one after another in the main flow, because the pool is joined before the deletion phase and the tasks touch distinct paths. An exception raised inside a task is never retrieved, so it only leaves that file undelivered.
- MD5 itself is not modelled. The digest is a function parameter from content to text, assumed injective only where a lemma says so.
- `shutil.copy2` metadata (modification times, permissions) is not modelled; only content is.
- Progress bars (`tqdm`) and all logging calls are left out, and so is `src/logger.py`. The deletion phase returns the refusals it would log, and `SyncFolders` returns the deletion total it would show.
- `src/main.py` is not part of this model: a command-line loop with sleeps.
- Argument parsing and JSON reading in `load_config` (`src/config.py:59-75`) are left out, and the `choices` restriction on `--logging_level` with them. The model starts from the file's settings and the parsed options.
- `os.walk` ordering is left out: the copy phase handles source files in any order, and the deletion walk visits directories in any bottom-up order. Symbolic links and real path joining are also left out, since paths are sequences of names.
- Which removals the operating system refuses, for example for permissions, is a parameter (`refused`) rather than a model of the filesystem's rights.
- A replica root that exists as a file is not modelled. The replica root is either a directory or absent.
- A missing source root is modelled as an empty source tree, which is what `os.walk` and `os.path.exists` make of it.
- Config.IsDir: treats an integer or boolean as a file descriptor that is never a directory. An open descriptor on a directory is not modelled.
- Synchronizer.Mirror.CopyFile: permission and disk errors of `shutil.copy2` are not modelled; only the path errors are.
- Md5.ComputeMd5: open and read errors other than a file above the path, a directory or a missing path (permissions, I/O) are not modelled.
- The timing comparison in `tests/test_synchronization.py:62-77` is not modelled, because it measures wall-clock time.

=== FILE: config.dfy ===
/**
 * The configuration layer: `validate_config`, the ordered checks a settings
 * dictionary must pass, and the block of `load_config` that lets command-line
 * options override the values read from the configuration file.
 */
module Config {
  import opened Results

  /** A JSON value as `json.load` yields it; lists and objects are not told apart. */
  datatype Value = Str(s: string) | Int(i: int) | Bool(b: bool) | Float(r: real) | Null | Compound

  /**
   * A key of the configuration dictionary: the six names the program reads
   * (`source_folder`, `replica_folder`, `log_path`, `sync_interval`,
   * `max_workers`, `logging_level`), or any other name, carried along untouched.
   */
  datatype Key = SourceFolder | ReplicaFolder | LogPath | SyncInterval | MaxWorkers | LoggingLevel | Other(name: OtherName)

  /** A name other than the six the program reads, so that every dictionary key has exactly one `Key`. */
  type OtherName = s: string |
    && s != "source_folder" && s != "replica_folder" && s != "log_path"
    && s != "sync_interval" && s != "max_workers" && s != "logging_level"

  /** The configuration dictionary, by key. */
  type Settings = map<Key, Value>

  /**
   * The filesystem as `os.path.isdir` and `os.path.exists` see it, by path string:
   * `dirs` are the directories and `existing` the other paths that exist.
   */
  datatype Filesystem = Filesystem(dirs: set<string>, existing: set<string>)

  /** Why `validate_config` raises: one ValueError per check, or a TypeError from `os.path`. */
  datatype Rejection =
    | SourceFolderInvalid
    | ReplicaFolderInvalid
    | LogDirMissing
    | SyncIntervalInvalid
    | MaxWorkersInvalid
    | LoggingLevelInvalid
    | WrongType

  const LoggingLevels: seq<string> := ["DEBUG", "INFO", "WARNING", "ERROR", "CRITICAL"]

  /** `config.get(key, default)`. */
  function Get(config: Settings, key: Key, default: Value): (v: Value)
    ensures key in config ==> v == config[key]
    ensures key !in config ==> v == default
  {
    if key in config then config[key] else default
  }

  // ---------------------------------------------------------------------------
  // The `os.path` calls
  // ---------------------------------------------------------------------------

  /**
   * `os.path.isdir(v)`: a string names a directory or not (the empty path never
   * does); an int or bool is taken as a file descriptor that is not a directory;
   * any other value makes `os.stat` raise TypeError.
   */
  function IsDir(fs: Filesystem, v: Value): (r: Result<bool, Rejection>)
    ensures r.Err? <==> !(v.Str? || v.Int? || v.Bool?)
    ensures r == Ok(true) <==> v.Str? && v.s != "" && v.s in fs.dirs
  {
    match v
    case Str(s) => Ok(s != "" && s in fs.dirs)
    case Int(_) => Ok(false)
    case Bool(_) => Ok(false)
    case _ => Err(WrongType)
  }

  /** `os.path.exists(p)` on a path string: directories exist too; the empty path never exists. */
  predicate Exists(fs: Filesystem, p: string): (b: bool)
    ensures b ==> p != ""
    ensures IsDir(fs, Str(p)) == Ok(true) ==> b
    ensures p != "" && p in fs.existing ==> b
  {
    p != "" && (p in fs.dirs || p in fs.existing)
  }

  /** The index just after the last '/' of `s`, or 0 (`s.rfind('/') + 1`). */
  function AfterLastSlash(s: string): (i: nat)
    ensures i <= |s|
    ensures i > 0 ==> s[i - 1] == '/'
    ensures forall j | i <= j < |s| :: s[j] != '/'
  {
    if s == [] then 0
    else if s[|s| - 1] == '/' then |s|
    else AfterLastSlash(s[..|s| - 1])
  }

  /** `s.rstrip('/')`: the longest prefix not ending in '/', which keeps every other character. */
  function TrimTrailingSlashes(s: string): (r: string)
    ensures r <= s
    ensures r == [] || r[|r| - 1] != '/'
    ensures forall k | 0 <= k < |s| && s[k] != '/' :: k < |r|
    decreases |s|
  {
    if s != [] && s[|s| - 1] == '/' then TrimTrailingSlashes(s[..|s| - 1]) else s
  }

  predicate AllSlashes(s: string) {
    forall j | 0 <= j < |s| :: s[j] == '/'
  }

  /**
   * `os.path.dirname(p)` for POSIX paths: everything up to the last '/', with
   * trailing slashes removed unless the head is made of slashes only. It is
   * empty exactly when the path holds no '/', a bare file name.
   */
  function Dirname(p: string): (d: string)
    ensures d <= p
    ensures d == "" <==> '/' !in p
  {
    var i := AfterLastSlash(p);
    var head := p[..i];
    assert '/' in p ==> i > 0 && head[i - 1] == '/';
    if head != [] && !AllSlashes(head) then TrimTrailingSlashes(head) else head
  }

  // ---------------------------------------------------------------------------
  // validate_config
  // ---------------------------------------------------------------------------

  /** The setting holds a positive whole number; `bool` is a subclass of `int`, so `true` counts as 1. */
  predicate PositiveInt(v: Value) {
    (v.Int? && v.i > 0) || v == Bool(true)
  }

  /** `not isinstance(v, int) or v <= 0`, as written in the checks of lines 36 and 41. */
  predicate NotPositiveInt(v: Value) {
    !(v.Int? || v.Bool?) || (if v.Int? then v.i else if v.b then 1 else 0) <= 0
  }

  /** The log path names a file in an existing directory, or in the current one. */
  predicate LogPathOk(fs: Filesystem, config: Settings) {
    LogPath !in config ||
    (config[LogPath].Str? && ('/' !in config[LogPath].s || Exists(fs, Dirname(config[LogPath].s))))
  }

  predicate LevelOk(config: Settings) {
    LoggingLevel in config && config[LoggingLevel].Str? && config[LoggingLevel].s in LoggingLevels
  }

  predicate FolderOk(fs: Filesystem, config: Settings, key: Key) {
    key in config && IsDir(fs, config[key]) == Ok(true)
  }

  /**
   * `validate_config(config)`: the checks run in source order and the first one
   * that fails decides the error; when all pass the result is `True`.
   */
  function ValidateConfig(fs: Filesystem, config: Settings): (r: Result<bool, Rejection>)
    ensures r.Ok? ==> r.value
    ensures r.Ok? <==>
      FolderOk(fs, config, SourceFolder) && FolderOk(fs, config, ReplicaFolder) &&
      LogPathOk(fs, config) &&
      SyncInterval in config && PositiveInt(config[SyncInterval]) &&
      MaxWorkers in config && PositiveInt(config[MaxWorkers]) &&
      LevelOk(config)
    ensures r == Err(SourceFolderInvalid) <==> SourceFolder !in config || IsDir(fs, config[SourceFolder]) == Ok(false)
    ensures r == Err(ReplicaFolderInvalid) <==>
      FolderOk(fs, config, SourceFolder) &&
      (ReplicaFolder !in config || IsDir(fs, config[ReplicaFolder]) == Ok(false))
    ensures r == Err(LogDirMissing) <==>
      FolderOk(fs, config, SourceFolder) && FolderOk(fs, config, ReplicaFolder) &&
      LogPath in config && config[LogPath].Str? && !LogPathOk(fs, config)
    ensures r == Err(SyncIntervalInvalid) <==>
      FolderOk(fs, config, SourceFolder) && FolderOk(fs, config, ReplicaFolder) && LogPathOk(fs, config) &&
      !(SyncInterval in config && PositiveInt(config[SyncInterval]))
    ensures r == Err(MaxWorkersInvalid) <==>
      FolderOk(fs, config, SourceFolder) && FolderOk(fs, config, ReplicaFolder) && LogPathOk(fs, config) &&
      SyncInterval in config && PositiveInt(config[SyncInterval]) &&
      !(MaxWorkers in config && PositiveInt(config[MaxWorkers]))
    ensures r == Err(LoggingLevelInvalid) <==>
      FolderOk(fs, config, SourceFolder) && FolderOk(fs, config, ReplicaFolder) && LogPathOk(fs, config) &&
      SyncInterval in config && PositiveInt(config[SyncInterval]) &&
      MaxWorkers in config && PositiveInt(config[MaxWorkers]) &&
      !LevelOk(config)
  {
    var source := IsDir(fs, Get(config, SourceFolder, Str("")));
    if source.Err? then Err(source.error)
    else if !source.value then Err(SourceFolderInvalid)
    else
      var replica := IsDir(fs, Get(config, ReplicaFolder, Str("")));
      if replica.Err? then Err(replica.error)
      else if !replica.value then Err(ReplicaFolderInvalid)
      else
        var logPath := Get(config, LogPath, Str(""));
        if !logPath.Str? then Err(WrongType)
        else
          var logDir := Dirname(logPath.s);
          if logDir != "" && !Exists(fs, logDir) then Err(LogDirMissing)
          else if NotPositiveInt(Get(config, SyncInterval, Int(0))) then Err(SyncIntervalInvalid)
          else if NotPositiveInt(Get(config, MaxWorkers, Int(0))) then Err(MaxWorkersInvalid)
          else
            var level := Get(config, LoggingLevel, Null);
            if !(level.Str? && level.s in LoggingLevels) then Err(LoggingLevelInvalid)
            else Ok(true)
  }

  // ---------------------------------------------------------------------------
  // Command-line overrides
  // ---------------------------------------------------------------------------

  /** The command-line options of `load_config`; `None` when an option is not given. */
  datatype Args = Args(
    sourceFolder: Option<string>,
    replicaFolder: Option<string>,
    logPath: Option<string>,
    syncInterval: Option<int>,
    maxWorkers: Option<int>,
    loggingLevel: Option<string>)

  /** A given, non-empty string option is truthy. */
  predicate TruthyStr(o: Option<string>) {
    o.Some? && o.value != ""
  }

  /** A given, non-zero integer option is truthy. */
  predicate TruthyInt(o: Option<int>) {
    o.Some? && o.value != 0
  }

  /** The setting that option `o` supplies for `key`, when it supplies one. */
  function Supplied(args: Args, key: Key): Option<Value> {
    match key
    case SourceFolder => if TruthyStr(args.sourceFolder) then Some(Str(args.sourceFolder.value)) else None
    case ReplicaFolder => if TruthyStr(args.replicaFolder) then Some(Str(args.replicaFolder.value)) else None
    case LogPath => if TruthyStr(args.logPath) then Some(Str(args.logPath.value)) else None
    case SyncInterval => if TruthyInt(args.syncInterval) then Some(Int(args.syncInterval.value)) else None
    case MaxWorkers => if TruthyInt(args.maxWorkers) then Some(Int(args.maxWorkers.value)) else None
    case LoggingLevel => if TruthyStr(args.loggingLevel) then Some(Str(args.loggingLevel.value)) else None
    case Other(_) => None
  }

  /** The settings after the overrides: a supplied option wins, every other key keeps the file's value. */
  function Merged(config: Settings, args: Args): (m: Settings)
    ensures forall key | key in m :: key in config || !key.Other?
  {
    map key | key in config.Keys + {SourceFolder, ReplicaFolder, LogPath, SyncInterval, MaxWorkers, LoggingLevel} &&
        (key in config || Supplied(args, key).Some?) ::
      if Supplied(args, key).Some? then Supplied(args, key).value else config[key]
  }

  /**
   * Lines 78-89 of `load_config`: each option given with a truthy value is written
   * over the file's setting, one key after another.
   */
  method ApplyOverrides(config: Settings, args: Args) returns (result: Settings)
    ensures result == Merged(config, args)
  {
    NoOptionsKeepsFile(config);
    result := ApplyPathOverrides(config, args, config);
    result := ApplyNumberOverrides(config, args, result);
    assert FirstOptions(args, 6) == args;
  }

  /** The three path options, `--source_folder`, `--replica_folder`, `--log_path`. */
  method ApplyPathOverrides(ghost config: Settings, args: Args, current: Settings) returns (result: Settings)
    requires current == Merged(config, FirstOptions(args, 0))
    ensures result == Merged(config, FirstOptions(args, 3))
  {
    result := current;
    if TruthyStr(args.sourceFolder) {
      result := result[SourceFolder := Str(args.sourceFolder.value)];
    }
    FirstOptionsStep(config, args, 0);
    assert result == Merged(config, FirstOptions(args, 1));
    if TruthyStr(args.replicaFolder) {
      result := result[ReplicaFolder := Str(args.replicaFolder.value)];
    }
    FirstOptionsStep(config, args, 1);
    assert result == Merged(config, FirstOptions(args, 2));
    if TruthyStr(args.logPath) {
      result := result[LogPath := Str(args.logPath.value)];
    }
    FirstOptionsStep(config, args, 2);
  }

  /** The remaining options, `--sync_interval`, `--max_workers`, `--logging_level`. */
  method ApplyNumberOverrides(ghost config: Settings, args: Args, current: Settings) returns (result: Settings)
    requires current == Merged(config, FirstOptions(args, 3))
    ensures result == Merged(config, FirstOptions(args, 6))
  {
    result := current;
    if TruthyInt(args.syncInterval) {
      result := result[SyncInterval := Int(args.syncInterval.value)];
    }
    FirstOptionsStep(config, args, 3);
    assert result == Merged(config, FirstOptions(args, 4));
    if TruthyInt(args.maxWorkers) {
      result := result[MaxWorkers := Int(args.maxWorkers.value)];
    }
    FirstOptionsStep(config, args, 4);
    assert result == Merged(config, FirstOptions(args, 5));
    if TruthyStr(args.loggingLevel) {
      result := result[LoggingLevel := Str(args.loggingLevel.value)];
    }
    FirstOptionsStep(config, args, 5);
  }

  /** The options in the order `load_config` applies them. */
  function OptionKey(n: nat): Key
    requires n < 6
  {
    [SourceFolder, ReplicaFolder, LogPath, SyncInterval, MaxWorkers, LoggingLevel][n]
  }

  /** The first `n` options of `args`, the others left out. */
  function FirstOptions(args: Args, n: nat): Args {
    Args(
      if n >= 1 then args.sourceFolder else None,
      if n >= 2 then args.replicaFolder else None,
      if n >= 3 then args.logPath else None,
      if n >= 4 then args.syncInterval else None,
      if n >= 5 then args.maxWorkers else None,
      if n >= 6 then args.loggingLevel else None)
  }

  /** Applying option `n` after the first `n` ones. */
  lemma FirstOptionsStep(config: Settings, args: Args, n: nat)
    requires n < 6
    ensures var before := Merged(config, FirstOptions(args, n));
      var key := OptionKey(n);
      Merged(config, FirstOptions(args, n + 1)) ==
        if Supplied(args, key).Some? then before[key := Supplied(args, key).value] else before
  {
    var a := FirstOptions(args, n);
    var b := FirstOptions(args, n + 1);
    var key := OptionKey(n);
    forall k | k != key
      ensures Supplied(b, k) == Supplied(a, k)
    {
    }
    assert Supplied(b, key) == Supplied(args, key);
    OneMoreOption(config, a, b, key);
  }

  /** Applying one more option `key` on top of options `a` gives the merge under `b`. */
  lemma OneMoreOption(config: Settings, a: Args, b: Args, key: Key)
    requires Supplied(a, key).None?
    requires forall k | k != key :: Supplied(b, k) == Supplied(a, k)
    ensures Merged(config, b) ==
      if Supplied(b, key).Some? then Merged(config, a)[key := Supplied(b, key).value] else Merged(config, a)
  {
    var expected := if Supplied(b, key).Some? then Merged(config, a)[key := Supplied(b, key).value] else Merged(config, a);
    forall k | k in Merged(config, b) || k in expected
      ensures k in Merged(config, b) && k in expected && Merged(config, b)[k] == expected[k]
    {
      MergedAt(config, a, k);
      MergedAt(config, b, k);
    }
  }

  // ---------------------------------------------------------------------------
  // Properties
  // ---------------------------------------------------------------------------

  /** An option given with a truthy value decides its key; keys no option names keep the file's value. */
  lemma MergedAt(config: Settings, args: Args, key: Key)
    ensures Supplied(args, key).Some? ==> key in Merged(config, args) && Merged(config, args)[key] == Supplied(args, key).value
    ensures Supplied(args, key).None? ==>
      (key in Merged(config, args) <==> key in config) &&
      (key in config ==> Merged(config, args)[key] == config[key])
    ensures key.Other? ==> Supplied(args, key).None?
  {
  }

  /** An explicit 0 for the interval or the worker count is falsy: that key keeps the file's value, or stays absent. */
  lemma ZeroDoesNotOverride(config: Settings, args: Args)
    ensures args.syncInterval == Some(0) ==>
      (SyncInterval in Merged(config, args) <==> SyncInterval in config) &&
      (SyncInterval in config ==> Merged(config, args)[SyncInterval] == config[SyncInterval])
    ensures args.maxWorkers == Some(0) ==>
      (MaxWorkers in Merged(config, args) <==> MaxWorkers in config) &&
      (MaxWorkers in config ==> Merged(config, args)[MaxWorkers] == config[MaxWorkers])
  {
    MergedAt(config, args, SyncInterval);
    MergedAt(config, args, MaxWorkers);
  }

  /** Without options the file's settings are used as they are. */
  lemma NoOptionsKeepsFile(config: Settings)
    ensures Merged(config, Args(None, None, None, None, None, None)) == config
  {
    var m := Merged(config, Args(None, None, None, None, None, None));
    forall key | key in m || key in config
      ensures key in m && key in config && m[key] == config[key]
    {
      MergedAt(config, Args(None, None, None, None, None, None), key);
    }
  }

  /** Applying the same options twice is the same as applying them once. */
  lemma MergedIdempotent(config: Settings, args: Args)
    ensures Merged(Merged(config, args), args) == Merged(config, args)
  {
    var m := Merged(config, args);
    var m2 := Merged(m, args);
    forall key | key in m2 || key in m
      ensures key in m2 && key in m && m2[key] == m[key]
    {
      MergedAt(config, args, key);
      MergedAt(m, args, key);
    }
  }

  /** A missing interval defaults to 0 and is rejected once the earlier checks pass. */
  lemma MissingIntervalRejected(fs: Filesystem, config: Settings)
    requires FolderOk(fs, config, SourceFolder) && FolderOk(fs, config, ReplicaFolder) && LogPathOk(fs, config)
    requires SyncInterval !in config
    ensures ValidateConfig(fs, config) == Err(SyncIntervalInvalid)
  {
  }

  /** A missing worker count defaults to 0 and is rejected once the earlier checks pass. */
  lemma MissingWorkersRejected(fs: Filesystem, config: Settings)
    requires FolderOk(fs, config, SourceFolder) && FolderOk(fs, config, ReplicaFolder) && LogPathOk(fs, config)
    requires SyncInterval in config && PositiveInt(config[SyncInterval]) && MaxWorkers !in config
    ensures ValidateConfig(fs, config) == Err(MaxWorkersInvalid)
  {
  }

  predicate HasLowercase(s: string) {
    exists i | 0 <= i < |s| :: 'a' <= s[i] <= 'z'
  }

  /**
   * Level names are matched exactly: once the earlier checks pass, a missing
   * level, a value that is not a string, or a name with a lower-case letter is
   * rejected.
   */
  lemma LowercaseLevelRejected(fs: Filesystem, config: Settings)
    requires FolderOk(fs, config, SourceFolder) && FolderOk(fs, config, ReplicaFolder) && LogPathOk(fs, config)
    requires SyncInterval in config && PositiveInt(config[SyncInterval])
    requires MaxWorkers in config && PositiveInt(config[MaxWorkers])
    requires LoggingLevel !in config || !config[LoggingLevel].Str? || HasLowercase(config[LoggingLevel].s)
    ensures ValidateConfig(fs, config) == Err(LoggingLevelInvalid)
  {
    forall j | 0 <= j < |LoggingLevels|
      ensures !HasLowercase(LoggingLevels[j])
    {
    }
  }

  /** The order of the checks: a config failing both folder checks reports the source folder. */
  lemma SourceCheckedFirst(fs: Filesystem, config: Settings)
    requires SourceFolder !in config
    ensures ValidateConfig(fs, config) == Err(SourceFolderInvalid)
  {
  }

  /** A bare file name, or no log path at all, always passes the log check. */
  lemma BareLogNamePasses(fs: Filesystem, config: Settings)
    requires LogPath !in config || (config[LogPath].Str? && '/' !in config[LogPath].s)
    ensures LogPathOk(fs, config)
    ensures ValidateConfig(fs, config) != Err(LogDirMissing)
  {
  }
}

=== FILE: fs_tree.dfy ===
/**
 * An abstract directory tree: the view of the filesystem that the mirror works on.
 * A tree maps every path below its root to a file (with its bytes) or a directory;
 * the root itself is the empty path and is not a key.
 */
module FsTree {

  /** One component of a path (a file or directory name). */
  type Name = string

  /** A path relative to a tree root, as its name components; [] is the root. */
  type Path = seq<Name>

  type Bytes = seq<bv8>

  /** The hexadecimal digest text that hashing a file's content yields. */
  type Digest = string

  datatype Entry = File(content: Bytes) | Dir

  type Tree = map<Path, Entry>

  /** The OSError kinds the core runs into. */
  datatype FsError = FileNotFound | IsADirectory | NotADirectory

  function Parent(p: Path): (q: Path)
    requires p != []
    ensures q < p && |q| == |p| - 1
  {
    p[..|p| - 1]
  }

  /** `p` names a directory: the root, or a directory entry of `t`. */
  predicate IsDirIn(t: Tree, p: Path) {
    p == [] || (p in t && t[p].Dir?)
  }

  predicate IsFileIn(t: Tree, p: Path) {
    p in t && t[p].File?
  }

  /** `p` is an entry of `t`; the trigger of `WellFormed`, so that it does not feed on itself. */
  ghost predicate InTree(t: Tree, p: Path) {
    p in t
  }

  /** Every entry lies strictly below the root and hangs from a directory. */
  ghost predicate WellFormed(t: Tree) {
    forall p {:trigger InTree(t, p)} | InTree(t, p) :: p != [] && IsDirIn(t, Parent(p))
  }

  /** What `WellFormed` says about one entry. */
  lemma EntryHangs(t: Tree, p: Path)
    requires WellFormed(t) && p in t
    ensures p != [] && IsDirIn(t, Parent(p))
  {
    assert InTree(t, p);
  }

  /**
   * A file lies strictly above `p`: resolving `p` meets a file where a directory
   * is needed, and the operating system answers NotADirectoryError.
   */
  predicate UnderFile(t: Tree, p: Path) {
    exists k | 1 <= k < |p| :: IsFileIn(t, p[..k])
  }

  /** The entries directly inside `d`, as `os.listdir` sees them. */
  function Listdir(t: Tree, d: Path): (kids: set<Path>)
    ensures forall p | p in kids :: p in t && p != [] && Parent(p) == d
    ensures forall p | p in t && p != [] && Parent(p) == d :: p in kids
  {
    set p | p in t && p != [] && Parent(p) == d
  }

  /** The non-empty prefixes of `p`, `p` included: what `os.makedirs(p)` must provide. */
  function Prefixes(p: Path): (ps: set<Path>)
    ensures forall q | q in ps :: q != [] && q <= p
  {
    set k | 1 <= k <= |p| :: p[..k]
  }

  /** The entries whose parent is one of the directories `ds`. */
  function Children(t: Tree, ds: set<Path>): set<Path> {
    set p | p in t && p != [] && Parent(p) in ds
  }

  /** `t` after `os.makedirs` of every path in `ds` that is missing: existing entries stay. */
  function WithDirs(t: Tree, ds: set<Path>): (r: Tree)
    ensures r.Keys == t.Keys + ds
    ensures forall p | p in t :: r[p] == t[p]
    ensures forall p | p in ds && p !in t :: r[p] == Dir
  {
    map p | p in t.Keys + ds :: if p in t then t[p] else Dir
  }

  /** Making one more directory: a new directory entry, or nothing when the path is taken. */
  lemma WithDirsAdd(t: Tree, ds: set<Path>, q: Path)
    ensures WithDirs(t, ds + {q}) ==
      if q in WithDirs(t, ds) then WithDirs(t, ds) else WithDirs(t, ds)[q := Dir]
  {
  }

  lemma WithDirsNoop(t: Tree, ds: set<Path>)
    requires ds <= t.Keys
    ensures WithDirs(t, ds) == t
  {
  }

  /** A new directory inside a directory keeps a tree well-formed. */
  lemma AddDirWellFormed(t: Tree, q: Path)
    requires WellFormed(t) && q != [] && q !in t && IsDirIn(t, Parent(q))
    ensures WellFormed(t[q := Dir])
  {
    var u := t[q := Dir];
    forall p | InTree(u, p)
      ensures p != [] && IsDirIn(u, Parent(p))
    {
      if p != q {
        EntryHangs(t, p);
      }
    }
  }

  /** Writing a file inside a directory, over nothing or over a file, keeps a tree well-formed. */
  lemma PutFileWellFormed(t: Tree, q: Path, content: Bytes)
    requires WellFormed(t) && q != [] && IsDirIn(t, Parent(q)) && (q in t ==> t[q].File?)
    ensures WellFormed(t[q := File(content)])
  {
    var u := t[q := File(content)];
    forall p | InTree(u, p)
      ensures p != [] && IsDirIn(u, Parent(p))
    {
      if p != q {
        EntryHangs(t, p);
        if Parent(p) == q {
          assert false;
        }
      }
    }
  }

  /**
   * `os.makedirs(p)` meeting a file at `p[..k]`: `p[..k]` is a proper prefix of `p`,
   * and every shorter prefix already existed, so nothing was created.
   */
  lemma MakeDirsBlocked(t: Tree, made: set<Path>, p: Path, k: nat)
    requires WellFormed(t) && p !in t && 1 <= k <= |p|
    requires made <= Prefixes(p) && forall x | x in made :: |x| < k
    requires IsFileIn(WithDirs(t, made), p[..k])
    ensures k < |p| && IsFileIn(t, p[..k]) && WithDirs(t, made) == t
  {
    var q := p[..k];
    assert q in t;
    forall x | x in made
      ensures x in t
    {
      assert x < q by {
        assert x == p[..|x|];
      }
      AncestorIsDir(t, q, x);
    }
    WithDirsNoop(t, made);
    assert p[..|p|] == p;
  }

  /** All prefixes of an entry are present. */
  lemma PrefixesPresent(t: Tree, p: Path)
    requires WellFormed(t) && p in t
    ensures Prefixes(p) <= t.Keys
  {
    forall x | x in Prefixes(p)
      ensures x in t
    {
      if x != p {
        AncestorIsDir(t, p, x);
      }
    }
  }

  /** In a well-formed tree every proper ancestor of an entry is a directory. */
  lemma {:induction false} AncestorIsDir(t: Tree, p: Path, q: Path)
    requires WellFormed(t) && p in t && q < p
    ensures IsDirIn(t, q)
    decreases |p|
  {
    EntryHangs(t, p);
    var up := Parent(p);
    if q != up {
      assert q < up by {
        assert |q| < |up|;
        assert up[..|q|] == p[..|q|];
      }
      AncestorIsDir(t, up, q);
    }
  }

  /** An entry of a well-formed tree has no file above it. */
  lemma EntryNotUnderFile(t: Tree, p: Path)
    requires WellFormed(t) && p in t
    ensures !UnderFile(t, p)
  {
    forall k | 1 <= k < |p|
      ensures !IsFileIn(t, p[..k])
    {
      AncestorIsDir(t, p, p[..k]);
    }
  }

  /** Nothing lies below a file. */
  lemma NothingBelowFile(t: Tree, f: Path, q: Path)
    requires WellFormed(t) && IsFileIn(t, f) && f < q
    ensures q !in t
  {
    if q in t {
      EntryHangs(t, f);
      AncestorIsDir(t, q, f);
    }
  }

  /** A file holds nothing. */
  lemma FileIsLeaf(t: Tree, f: Path)
    requires WellFormed(t) && IsFileIn(t, f)
    ensures Listdir(t, f) == {}
  {
    forall q | q in Listdir(t, f)
      ensures false
    {
      NothingBelowFile(t, f, q);
    }
  }

  /** A prefix of a prefix. */
  lemma PrefixTransitive(a: Path, b: Path, c: Path)
    requires a <= b && b <= c
    ensures a <= c
  {
    assert c[..|a|] == b[..|a|];
  }
}

=== FILE: md5.dfy ===
/**
 * `compute_md5`: the digest of a file, computed by streaming the file in
 * fixed-size chunks into a running hash state. The hash function itself is a
 * parameter (`md5`, from content to hexadecimal text); the hash state is
 * represented by what it has absorbed so far.
 */
module Md5 {
  import opened Results
  import opened FsTree

  /** `f.read(4096)`: the largest read the loop asks for. */
  const ChunkSize: nat := 4096

  /** The running state of the hasher: the bytes fed to `update` so far. */
  datatype Hasher = Hasher(absorbed: Bytes) {
    /** `hasher.update(chunk)`: the state now covers `chunk` after what it held. */
    function Update(chunk: Bytes): (h: Hasher)
      ensures h.absorbed == absorbed + chunk
    {
      Hasher(absorbed + chunk)
    }
  }

  /**
   * One `f.read(size)` at offset `pos` of a regular file: exactly `size` bytes
   * when that many remain, the rest of the file otherwise, none at the end.
   */
  function Read(content: Bytes, pos: nat, size: nat): (chunk: Bytes)
    requires pos <= |content|
    ensures |chunk| == if pos + size <= |content| then size else |content| - pos
    ensures chunk == [] <==> (pos == |content| || size == 0)
    ensures chunk == content[pos..pos + |chunk|]
  {
    if pos + size <= |content| then content[pos..pos + size] else content[pos..]
  }

  /** Feeds a list of chunks to a hasher, in order. */
  function Feed(h: Hasher, chunks: seq<Bytes>): Hasher
    decreases |chunks|
  {
    if chunks == [] then h else Feed(h.Update(chunks[0]), chunks[1..])
  }

  function Concat(chunks: seq<Bytes>): Bytes
    decreases |chunks|
  {
    if chunks == [] then [] else chunks[0] + Concat(chunks[1..])
  }

  /**
   * Feeding chunks leaves the hasher in the state of feeding their concatenation
   * at once: the digest does not depend on how the content was split.
   */
  lemma {:induction false} FeedIsConcat(h: Hasher, chunks: seq<Bytes>)
    ensures Feed(h, chunks).absorbed == h.absorbed + Concat(chunks)
    decreases |chunks|
  {
    if chunks != [] {
      FeedIsConcat(h.Update(chunks[0]), chunks[1..]);
      assert h.absorbed + chunks[0] + Concat(chunks[1..]) == h.absorbed + (chunks[0] + Concat(chunks[1..]));
    }
  }

  /** Concatenating one more chunk at the end. */
  lemma {:induction false} ConcatSnoc(chunks: seq<Bytes>, c: Bytes)
    ensures Concat(chunks + [c]) == Concat(chunks) + c
    decreases |chunks|
  {
    if chunks != [] {
      assert (chunks + [c])[1..] == chunks[1..] + [c];
      ConcatSnoc(chunks[1..], c);
      assert chunks[0] + (Concat(chunks[1..]) + c) == chunks[0] + Concat(chunks[1..]) + c;
    }
  }

  /**
   * `compute_md5(path)`: opening fails on a file above the path, on a directory
   * (the root included) or on a missing path; a file is read chunk by chunk until
   * a read comes back empty, every chunk is fed to the hasher, and the digest is
   * that of the whole content.
   */
  method ComputeMd5(md5: Bytes -> Digest, t: Tree, p: Path) returns (r: Result<Digest, FsError>)
    ensures UnderFile(t, p) ==> r == Err(NotADirectory)
    ensures !UnderFile(t, p) && IsDirIn(t, p) ==> r == Err(IsADirectory)
    ensures !UnderFile(t, p) && p != [] && p !in t ==> r == Err(FileNotFound)
    ensures !UnderFile(t, p) && p != [] && IsFileIn(t, p) ==> r == Ok(md5(t[p].content))
  {
    if exists k | 1 <= k < |p| :: IsFileIn(t, p[..k]) {
      return Err(NotADirectory);
    }
    if IsDirIn(t, p) {
      return Err(IsADirectory);
    }
    if p !in t {
      return Err(FileNotFound);
    }
    var content := t[p].content;
    var hasher := Hasher([]);
    ghost var chunks: seq<Bytes> := [];
    var pos := 0;
    while true
      invariant pos <= |content|
      invariant hasher == Feed(Hasher([]), chunks)
      invariant Concat(chunks) == content[..pos]
      invariant forall i | 0 <= i < |chunks| :: 0 < |chunks[i]| <= ChunkSize
      decreases |content| - pos
    {
      var chunk := Read(content, pos, ChunkSize);
      if chunk == [] {
        break;
      }
      FeedIsConcat(Hasher([]), chunks);
      FeedIsConcat(Hasher([]), chunks + [chunk]);
      ConcatSnoc(chunks, chunk);
      assert content[..pos] + chunk == content[..pos + |chunk|];
      hasher := hasher.Update(chunk);
      chunks := chunks + [chunk];
      pos := pos + |chunk|;
    }
    FeedIsConcat(Hasher([]), chunks);
    assert hasher.absorbed == content;
    return Ok(md5(hasher.absorbed));
  }
}

=== FILE: results.dfy ===
/** Optional values and results: the shape of Python's `None` and raised exceptions. */
module Results {

  datatype Option<+T> = None | Some(value: T)

  datatype Result<+T, +E> = Ok(value: T) | Err(error: E)
}

=== FILE: sync_properties.dfy ===
/**
 * What one completed run of `sync_folders` guarantees about the replica, and what
 * a second run does. `S` is the source tree, `R` the replica before the run, `C`
 * the replica after the copy phase and `T` the replica at the end of the run.
 */
module SyncProperties {
  import opened FsTree
  import opened SyncSpec

  /** Distinct contents have distinct digests (an idealised MD5). */
  ghost predicate Injective(md5: Bytes -> Digest) {
    forall a: Bytes, b: Bytes {:trigger md5(a), md5(b)} :: md5(a) == md5(b) ==> a == b
  }

  /** The replica after the copy phase, entry by entry. */
  lemma AfterCopyAt(S: Tree, R: Tree, md5: Bytes -> Digest, p: Path)
    ensures var C := AfterCopy(S, R, md5);
      var landed := Landed(R, SourceFiles(S));
      (p in C <==> p in R || p in DirsFor(SourceFiles(S)) || p in landed) &&
      (p in C ==> C[p] == if p in landed && Scheduled(S, R, md5, p) then S[p] else if p in R then R[p] else Dir)
  {
  }

  /** A directory that making parents provides, at a proper prefix of a source file. */
  lemma PrefixIsMade(S: Tree, f: Path, k: nat)
    requires IsFileIn(S, f) && 1 <= k < |f|
    ensures f[..k] in DirsFor(SourceFiles(S))
  {
    assert f in SourceFiles(S);
  }

  /** Without a conflict, the replica after the copy phase is again a tree. */
  lemma CopiedWellFormed(S: Tree, R: Tree, md5: Bytes -> Digest)
    requires WellFormed(S) && WellFormed(R) && !HasConflict(S, R)
    ensures WellFormed(AfterCopy(S, R, md5))
  {
    var C := AfterCopy(S, R, md5);
    var files := SourceFiles(S);
    forall p | InTree(C, p)
      ensures p != [] && IsDirIn(C, Parent(p))
    {
      AfterCopyAt(S, R, md5, p);
      if p in R {
        EntryHangs(R, p);
        var up := Parent(p);
        if up != [] {
          AfterCopyAt(S, R, md5, up);
          if up in Landed(R, files) {
            assert Conflict(R, up);
            assert false;
          }
        }
      } else if p in DirsFor(files) {
        var f, k :| f in files && 1 <= k < |f| && p == f[..k];
        if k > 1 {
          var up := Parent(p);
          assert up == f[..k - 1];
          PrefixIsMade(S, f, k - 1);
          AfterCopyAt(S, R, md5, up);
          DirsForAreSourceDirs(S, files, up);
          if IsFileIn(R, up) {
            assert false;
          }
        }
      } else {
        assert p in files && !Blocked(R, p);
        EntryHangs(S, p);
        var up := Parent(p);
        if up != [] {
          assert up == p[..|p| - 1];
          PrefixIsMade(S, p, |p| - 1);
          AfterCopyAt(S, R, md5, up);
          DirsForAreSourceDirs(S, files, up);
        }
      }
    }
  }

  /** The run keeps every path the source has, as the copy phase left it. */
  lemma SourcePathsKept(S: Tree, C: Tree, L: set<Path>, p: Path)
    requires p in C && p in S
    ensures p in Pruned(S, C, L) && Pruned(S, C, L)[p] == C[p]
  {
  }

  /**
   * Completeness: after a run without conflict, every source file whose replica
   * parent is not a file is in the replica with the source's digest.
   */
  lemma SyncedFileMatches(S: Tree, R: Tree, md5: Bytes -> Digest, L: set<Path>, f: Path)
    requires WellFormed(S) && WellFormed(R) && !HasConflict(S, R)
    requires IsFileIn(S, f) && !Blocked(R, f)
    ensures var T := Pruned(S, AfterCopy(S, R, md5), L);
      IsFileIn(T, f) && md5(T[f].content) == md5(S[f].content)
  {
    assert f in SourceFiles(S);
    assert !Conflict(R, f);
    AfterCopyAt(S, R, md5, f);
    SourcePathsKept(S, AfterCopy(S, R, md5), L, f);
  }

  /** With an injective digest, every such source file is copied exactly. */
  lemma SyncedFileEqual(S: Tree, R: Tree, md5: Bytes -> Digest, L: set<Path>, f: Path)
    requires WellFormed(S) && WellFormed(R) && !HasConflict(S, R) && Injective(md5)
    requires IsFileIn(S, f) && !Blocked(R, f)
    ensures var T := Pruned(S, AfterCopy(S, R, md5), L);
      f in T && T[f] == S[f]
  {
    SyncedFileMatches(S, R, md5, L, f);
  }

  /**
   * A source file whose replica parent is a file is never delivered, and the
   * replica file stays where the source has a directory: the next run is
   * blocked the same way.
   */
  lemma BlockedPersists(S: Tree, R: Tree, md5: Bytes -> Digest, L: set<Path>, f: Path)
    requires WellFormed(S) && WellFormed(R)
    requires IsFileIn(S, f) && Blocked(R, f)
    ensures var T := Pruned(S, AfterCopy(S, R, md5), L);
      f !in T && Blocked(T, f)
  {
    var C := AfterCopy(S, R, md5);
    var up := Parent(f);
    EntryHangs(S, f);
    if f in R {
      EntryHangs(R, f);
    }
    if f in DirsFor(SourceFiles(S)) {
      DirsForAreSourceDirs(S, SourceFiles(S), f);
    }
    AfterCopyAt(S, R, md5, f);
    AfterCopyAt(S, R, md5, up);
    SourcePathsKept(S, C, L, up);
  }

  /**
   * Every directory a source file needs is a replica directory after a run without
   * conflict, unless a replica file sits there.
   */
  lemma NeededDirsExist(S: Tree, R: Tree, md5: Bytes -> Digest, L: set<Path>, f: Path, k: nat)
    requires WellFormed(S) && WellFormed(R) && !HasConflict(S, R)
    requires IsFileIn(S, f) && 1 <= k < |f| && !IsFileIn(R, f[..k])
    ensures var T := Pruned(S, AfterCopy(S, R, md5), L);
      f[..k] in T && T[f[..k]].Dir?
  {
    var q := f[..k];
    PrefixIsMade(S, f, k);
    DirsForAreSourceDirs(S, SourceFiles(S), q);
    AfterCopyAt(S, R, md5, q);
    SourcePathsKept(S, AfterCopy(S, R, md5), L, q);
  }

  /** A source directory with no file below it is not created in the replica. */
  lemma EmptySourceDirNotMirrored(S: Tree, R: Tree, md5: Bytes -> Digest, L: set<Path>, d: Path)
    requires d in S && S[d].Dir? && d !in R
    requires forall f | f in SourceFiles(S) :: !(d < f)
    ensures d !in Pruned(S, AfterCopy(S, R, md5), L)
  {
    AfterCopyAt(S, R, md5, d);
    forall f, k | f in SourceFiles(S) && 1 <= k < |f|
      ensures f[..k] != d
    {
      assert f[..k] < f;
    }
  }

  /**
   * Cleanup: a replica entry whose path the source lacks is removed, together with
   * everything below it, unless a removal in its subtree is refused.
   */
  lemma OrphanRemoved(S: Tree, R: Tree, md5: Bytes -> Digest, L: set<Path>, p: Path)
    requires WellFormed(S) && WellFormed(R)
    requires p in R && p !in S && forall q | q in R && p <= q :: q !in L
    ensures p !in Pruned(S, AfterCopy(S, R, md5), L)
  {
    var C := AfterCopy(S, R, md5);
    EntryHangs(R, p);
    AfterCopyAt(S, R, md5, p);
    forall q | q in C && p < q
      ensures q !in L
    {
      AbsentBelow(S, p, q);
      AfterCopyAt(S, R, md5, q);
      if q in DirsFor(SourceFiles(S)) {
        DirsForAreSourceDirs(S, SourceFiles(S), q);
      }
    }
  }

  /**
   * The walk removes an entry only when the source lacks its path, the operating
   * system allows it, and every entry below it is gone: a directory is empty when
   * it is removed.
   */
  lemma RemovalIsConservative(S: Tree, C: Tree, L: set<Path>, p: Path)
    requires WellFormed(S) && WellFormed(C) && p in C && p !in Pruned(S, C, L)
    ensures p !in S && p !in L && Listdir(Pruned(S, C, L), p) == {}
  {
    var T := Pruned(S, C, L);
    DirAttempted(S, C, L, p);
  }

  /** The end of the deletion phase is again a tree. */
  lemma PrunedWellFormed(S: Tree, C: Tree, L: set<Path>)
    requires WellFormed(S) && WellFormed(C)
    ensures WellFormed(Pruned(S, C, L))
  {
    var T := Pruned(S, C, L);
    forall p | InTree(T, p)
      ensures p != [] && IsDirIn(T, Parent(p))
    {
      EntryHangs(C, p);
      var up := Parent(p);
      if up != [] {
        assert p in Listdir(T, up);
        if up !in T {
          RemovalIsConservative(S, C, L, up);
        }
      }
    }
  }

  /**
   * A replica file where the source has a directory is never replaced: the
   * existence test does not look at kinds.
   */
  lemma KindMismatchKept(S: Tree, R: Tree, md5: Bytes -> Digest, L: set<Path>, p: Path)
    requires WellFormed(S) && IsFileIn(R, p) && p in S && S[p].Dir?
    ensures var T := Pruned(S, AfterCopy(S, R, md5), L);
      p in T && T[p] == R[p]
  {
    AfterCopyAt(S, R, md5, p);
    SourcePathsKept(S, AfterCopy(S, R, md5), L, p);
  }

  /**
   * The total of the deletion progress bar counts every orphan; the walk removes
   * no more than that, and exactly that many when no removal is refused.
   */
  lemma DeletionCountBound(S: Tree, C: Tree, L: set<Path>)
    ensures C.Keys - Pruned(S, C, L).Keys <= Orphans(S, C)
    ensures |C.Keys - Pruned(S, C, L).Keys| <= |Orphans(S, C)|
    ensures L == {} ==> C.Keys - Pruned(S, C, L).Keys == Orphans(S, C)
  {
    var removed := C.Keys - Pruned(S, C, L).Keys;
    assert removed <= Orphans(S, C);
    SubsetCard(removed, Orphans(S, C));
  }

  lemma {:induction false} SubsetCard(a: set<Path>, b: set<Path>)
    requires a <= b
    ensures |a| <= |b|
    decreases |b|
  {
    if a != {} {
      var x :| x in a;
      SubsetCard(a - {x}, b - {x});
    }
  }

  // ---------------------------------------------------------------------------
  // A second run
  // ---------------------------------------------------------------------------

  /** The end of a run is the copy-phase replica with some entries removed. */
  lemma PrunedWithin(S: Tree, C: Tree, L: set<Path>, p: Path)
    requires p in Pruned(S, C, L)
    ensures p in C && Pruned(S, C, L)[p] == C[p]
  {
  }

  /** Above a source file the run leaves what the replica had, or a new directory. */
  lemma AboveFileAfterRun(S: Tree, R: Tree, md5: Bytes -> Digest, L: set<Path>, f: Path, k: nat)
    requires WellFormed(S) && IsFileIn(S, f) && 1 <= k < |f|
    ensures var T := Pruned(S, AfterCopy(S, R, md5), L);
      f[..k] in T && T[f[..k]] == if f[..k] in R then R[f[..k]] else Dir
  {
    var q := f[..k];
    PrefixIsMade(S, f, k);
    DirsForAreSourceDirs(S, SourceFiles(S), q);
    AfterCopyAt(S, R, md5, q);
    SourcePathsKept(S, AfterCopy(S, R, md5), L, q);
  }

  /** A run without conflict leaves a replica without conflict. */
  lemma NoConflictAfterRun(S: Tree, R: Tree, md5: Bytes -> Digest, L: set<Path>)
    requires WellFormed(S) && WellFormed(R) && !HasConflict(S, R)
    ensures !HasConflict(S, Pruned(S, AfterCopy(S, R, md5), L))
  {
    var C := AfterCopy(S, R, md5);
    var T := Pruned(S, C, L);
    forall f | f in SourceFiles(S)
      ensures !Conflict(T, f)
    {
      assert !Conflict(R, f);
      if f in T {
        PrunedWithin(S, C, L, f);
        AfterCopyAt(S, R, md5, f);
        if f in DirsFor(SourceFiles(S)) {
          DirsForAreSourceDirs(S, SourceFiles(S), f);
        }
      }
      forall k | 1 <= k < |f| - 1
        ensures !IsFileIn(T, f[..k])
      {
        AboveFileAfterRun(S, R, md5, L, f, k);
      }
    }
  }

  /** A source file is blocked after the run exactly when it was blocked before. */
  lemma BlockedAfterRun(S: Tree, R: Tree, md5: Bytes -> Digest, L: set<Path>, f: Path)
    requires WellFormed(S) && IsFileIn(S, f)
    ensures Blocked(Pruned(S, AfterCopy(S, R, md5), L), f) <==> Blocked(R, f)
  {
    if |f| > 1 {
      AboveFileAfterRun(S, R, md5, L, f, |f| - 1);
      assert Parent(f) == f[..|f| - 1];
    }
  }

  /** The files a second run submits for copying are exactly the blocked ones. */
  lemma SecondRunSchedules(S: Tree, R: Tree, md5: Bytes -> Digest, L: set<Path>)
    requires WellFormed(S) && WellFormed(R) && !HasConflict(S, R)
    ensures var T := Pruned(S, AfterCopy(S, R, md5), L);
      ScheduledFiles(S, T, md5) == set f | f in SourceFiles(S) && Blocked(R, f)
  {
    var T := Pruned(S, AfterCopy(S, R, md5), L);
    forall f | f in SourceFiles(S)
      ensures Scheduled(S, T, md5, f) <==> Blocked(R, f)
    {
      if Blocked(R, f) {
        BlockedPersists(S, R, md5, L, f);
      } else {
        SyncedFileMatches(S, R, md5, L, f);
      }
    }
  }

  /** A second copy phase changes nothing: the failed copies fail again. */
  lemma CopyFixpoint(S: Tree, R: Tree, md5: Bytes -> Digest, L: set<Path>)
    requires WellFormed(S) && WellFormed(R) && !HasConflict(S, R)
    ensures var T := Pruned(S, AfterCopy(S, R, md5), L);
      AfterCopy(S, T, md5) == T
  {
    var T := Pruned(S, AfterCopy(S, R, md5), L);
    var T' := AfterCopy(S, T, md5);
    forall p | p in T' || p in T
      ensures p in T && p in T' && T'[p] == T[p]
    {
      AfterCopyAt(S, T, md5, p);
      if p in DirsFor(SourceFiles(S)) {
        var f, k :| f in SourceFiles(S) && 1 <= k < |f| && p == f[..k];
        AboveFileAfterRun(S, R, md5, L, f, k);
      }
      if p in SourceFiles(S) {
        BlockedAfterRun(S, R, md5, L, p);
        if !Blocked(R, p) {
          SyncedFileMatches(S, R, md5, L, p);
        }
      }
    }
  }

  /** A second deletion walk changes nothing: what stays has a refused removal below it. */
  lemma PruneFixpoint(S: Tree, C: Tree, L: set<Path>)
    ensures Pruned(S, Pruned(S, C, L), L) == Pruned(S, C, L)
  {
    var T := Pruned(S, C, L);
    forall p | p in T
      ensures !Removable(S, T, L, p)
    {
      if p !in S && p !in L {
        var q :| q in C && p < q && q in L;
        assert q in T;
      }
    }
  }

  /**
   * Idempotence: after a run without conflict, a second run with the same
   * refusals raises nothing, submits only the blocked files again, and leaves the
   * replica as it is.
   */
  lemma SecondRunNoop(S: Tree, R: Tree, md5: Bytes -> Digest, L: set<Path>)
    requires WellFormed(S) && WellFormed(R) && !HasConflict(S, R)
    ensures var T := Pruned(S, AfterCopy(S, R, md5), L);
      && !HasConflict(S, T)
      && ScheduledFiles(S, T, md5) == (set f | f in SourceFiles(S) && Blocked(R, f))
      && Pruned(S, AfterCopy(S, T, md5), L) == T
  {
    NoConflictAfterRun(S, R, md5, L);
    SecondRunSchedules(S, R, md5, L);
    CopyFixpoint(S, R, md5, L);
    PruneFixpoint(S, AfterCopy(S, R, md5), L);
  }
}

=== FILE: sync_spec.dfy ===
/**
 * What one run of `sync_folders` does to the replica, stated on the abstract
 * trees: the copy phase, the bottom-up deletion phase, and the properties of
 * their composition. `S` is the source tree, `R` the replica before the run,
 * `md5` the digest of a content and `L` the paths whose removal the operating
 * system refuses (a failed `os.remove` or `os.rmdir`).
 */
module SyncSpec {
  import opened FsTree

  // ---------------------------------------------------------------------------
  // Copy phase
  // ---------------------------------------------------------------------------

  function SourceFiles(S: Tree): (fs: set<Path>)
    ensures forall f | f in fs :: IsFileIn(S, f)
  {
    set f | f in S && S[f].File?
  }

  /** The directories that creating the parent of each file in `files` provides. */
  function DirsFor(files: set<Path>): set<Path> {
    set f, k | f in files && 1 <= k < |f| :: f[..k]
  }

  /**
   * A replica file sits exactly where the parent directory of `f` belongs:
   * `os.path.exists` says the replica path is absent, the copy is submitted,
   * and the worker's copy fails (its exception is never retrieved).
   */
  predicate Blocked(R: Tree, f: Path) {
    |f| > 1 && IsFileIn(R, Parent(f))
  }

  /**
   * Handling source file `f` raises in the main thread: `compute_md5` opens a
   * replica directory, or `os.makedirs` meets a replica file above the parent.
   */
  predicate Conflict(R: Tree, f: Path) {
    (f in R && R[f].Dir?) || exists k | 1 <= k < |f| - 1 :: IsFileIn(R, f[..k])
  }

  ghost predicate HasConflict(S: Tree, R: Tree) {
    exists f | f in SourceFiles(S) :: Conflict(R, f)
  }

  /** A copy of `f` is submitted: its replica path is absent, or holds a file with another digest. */
  predicate Scheduled(S: Tree, R: Tree, md5: Bytes -> Digest, f: Path)
    requires IsFileIn(S, f)
  {
    f !in R || (R[f].File? && md5(R[f].content) != md5(S[f].content))
  }

  function ScheduledFiles(S: Tree, R: Tree, md5: Bytes -> Digest): set<Path> {
    set f | f in SourceFiles(S) && Scheduled(S, R, md5, f)
  }

  /** The processed files whose copy, when one is made, lands in the replica. */
  function Landed(R: Tree, copied: set<Path>): set<Path> {
    set f | f in copied && !Blocked(R, f)
  }

  /**
   * The replica after the parents of the files in `made` have been created and
   * the files in `copied` have been compared and, where scheduled, copied.
   */
  ghost function CopyState(S: Tree, R: Tree, md5: Bytes -> Digest, made: set<Path>, copied: set<Path>): Tree
    requires copied <= SourceFiles(S)
  {
    map p | p in R.Keys + DirsFor(made) + Landed(R, copied) ::
      if p in Landed(R, copied) && Scheduled(S, R, md5, p) then S[p]
      else if p in R then R[p] else Dir
  }

  /** The replica at the end of the copy phase, when no conflict aborts it. */
  ghost function AfterCopy(S: Tree, R: Tree, md5: Bytes -> Digest): Tree {
    CopyState(S, R, md5, SourceFiles(S), SourceFiles(S))
  }

  /** Moving one element from the pending set to the handled set keeps them a partition of `all`. */
  lemma MoveOne(all: set<Path>, todo: set<Path>, done: set<Path>, f: Path)
    requires todo + done == all && todo !! done && f in todo
    ensures (todo - {f}) + (done + {f}) == all && (todo - {f}) !! (done + {f})
  {
  }

  /** Recording whether the copy of one more file `f` was submitted. */
  lemma SubmitStep(S: Tree, R: Tree, md5: Bytes -> Digest, done: set<Path>, submitted: set<Path>, f: Path)
    requires done <= SourceFiles(S) && IsFileIn(S, f) && submitted <= done
    requires forall g | g in done :: g in submitted <==> Scheduled(S, R, md5, g)
    ensures var submitted' := if Scheduled(S, R, md5, f) then submitted + {f} else submitted;
      forall g | g in done + {f} :: g in submitted' <==> Scheduled(S, R, md5, g)
  {
    var submitted' := if Scheduled(S, R, md5, f) then submitted + {f} else submitted;
    forall g | g in done + {f}
      ensures g in submitted' <==> Scheduled(S, R, md5, g)
    {
      if g != f {
        assert g in done;
      }
    }
  }

  /** Regrouping a union with one more element. */
  lemma UnionRegroup(a: set<Path>, b: set<Path>, x: Path)
    ensures a + b + {x} == a + (b + {x})
  {
  }

  /** Before any file is handled, the copy state is the replica itself. */
  lemma CopyStateStart(S: Tree, R: Tree, md5: Bytes -> Digest)
    ensures CopyState(S, R, md5, {}, {}) == R
  {
    assert DirsFor({}) == {};
  }

  /** Every directory that creating parents provides is a directory of the source. */
  lemma DirsForAreSourceDirs(S: Tree, files: set<Path>, q: Path)
    requires WellFormed(S) && files <= SourceFiles(S) && q in DirsFor(files)
    ensures q != [] && q in S && S[q].Dir?
  {
    var f, k :| f in files && 1 <= k < |f| && q == f[..k];
    AncestorIsDir(S, f, q);
  }

  lemma DirsForStep(files: set<Path>, f: Path)
    requires f != []
    ensures DirsFor(files + {f}) == DirsFor(files) + Prefixes(Parent(f))
  {
    forall q | q in Prefixes(Parent(f))
      ensures q in DirsFor(files + {f})
    {
      var k :| 1 <= k <= |Parent(f)| && q == Parent(f)[..k];
      assert q == f[..k];
    }
    forall q | q in DirsFor(files + {f})
      ensures q in DirsFor(files) + Prefixes(Parent(f))
    {
      var g, k :| g in files + {f} && 1 <= k < |g| && q == g[..k];
      if g == f {
        assert q == Parent(f)[..k];
      }
    }
  }

  /** Outside the landed files, the copy state holds the replica's entries and the created directories. */
  lemma CopyStateAt(S: Tree, R: Tree, md5: Bytes -> Digest, made: set<Path>, copied: set<Path>, q: Path)
    requires copied <= SourceFiles(S) && q !in Landed(R, copied)
    ensures var C := CopyState(S, R, md5, made, copied);
      (q in C <==> q in R || q in DirsFor(made)) &&
      (q in C ==> C[q] == if q in R then R[q] else Dir)
  {
  }

  /** Creating the parent directories of `f` (os.makedirs) moves `f` into `made`. */
  lemma MakeParentStep(S: Tree, R: Tree, md5: Bytes -> Digest, done: set<Path>, f: Path)
    requires WellFormed(S) && done <= SourceFiles(S) && IsFileIn(S, f) && f != []
    ensures CopyState(S, R, md5, done + {f}, done) == WithDirs(CopyState(S, R, md5, done, done), Prefixes(Parent(f)))
  {
    var C := CopyState(S, R, md5, done, done);
    var C' := CopyState(S, R, md5, done + {f}, done);
    var W := WithDirs(C, Prefixes(Parent(f)));
    DirsForStep(done, f);
    forall q | q in Prefixes(Parent(f))
      ensures q !in Landed(R, done)
    {
      assert q in DirsFor(done + {f});
      DirsForAreSourceDirs(S, done + {f}, q);
    }
    assert C'.Keys == W.Keys;
    forall q | q in C'
      ensures C'[q] == W[q]
    {
      if q !in Landed(R, done) {
        CopyStateAt(S, R, md5, done + {f}, done, q);
        CopyStateAt(S, R, md5, done, done, q);
      }
    }
  }

  /**
   * After its parents are made, a file that is not yet copied is seen in the replica
   * exactly as in the original one, and its parent is a directory unless blocked.
   */
  lemma BeforeCopyAt(S: Tree, R: Tree, md5: Bytes -> Digest, done: set<Path>, f: Path)
    requires WellFormed(S) && WellFormed(R) && done <= SourceFiles(S) && IsFileIn(S, f) && f != [] && f !in done
    ensures var C := CopyState(S, R, md5, done + {f}, done);
      (f in C <==> f in R) && (f in R ==> C[f] == R[f]) &&
      (IsDirIn(C, Parent(f)) <==> !Blocked(R, f))
  {
    var C := CopyState(S, R, md5, done + {f}, done);
    if f in DirsFor(done + {f}) {
      DirsForAreSourceDirs(S, done + {f}, f);
    }
    CopyStateAt(S, R, md5, done + {f}, done, f);
    if |f| > 1 {
      var up := Parent(f);
      DirsForStep(done, f);
      assert up == Parent(f)[..|Parent(f)|];
      assert up in DirsFor(done + {f});
      DirsForAreSourceDirs(S, done + {f}, up);
      assert up !in Landed(R, done);
      CopyStateAt(S, R, md5, done + {f}, done, up);
    }
  }

  /** Comparing and copying `f` (when scheduled and deliverable) moves it into `copied`. */
  lemma CopyStep(S: Tree, R: Tree, md5: Bytes -> Digest, done: set<Path>, f: Path)
    requires WellFormed(S) && done <= SourceFiles(S) && IsFileIn(S, f) && f != [] && f !in done
    ensures var C := CopyState(S, R, md5, done + {f}, done);
      CopyState(S, R, md5, done + {f}, done + {f}) ==
        if Scheduled(S, R, md5, f) && !Blocked(R, f) then C[f := S[f]] else C
  {
    var C := CopyState(S, R, md5, done + {f}, done);
    var C' := CopyState(S, R, md5, done + {f}, done + {f});
    var W := if Scheduled(S, R, md5, f) && !Blocked(R, f) then C[f := S[f]] else C;
    assert Landed(R, done + {f}) == Landed(R, done) + (if Blocked(R, f) then {} else {f});
    assert C'.Keys == W.Keys;
    forall q | q in C'
      ensures C'[q] == W[q]
    {
    }
  }

  /** A directory of a replica file that is not landed keeps its kind across the copy phase. */
  lemma ConflictPreserved(S: Tree, R: Tree, md5: Bytes -> Digest, done: set<Path>, f: Path, k: nat)
    requires WellFormed(S) && done <= SourceFiles(S) && IsFileIn(S, f) && 1 <= k < |f|
    ensures IsFileIn(CopyState(S, R, md5, done + {f}, done), f[..k]) <==> IsFileIn(R, f[..k])
    ensures IsFileIn(CopyState(S, R, md5, done, done), f[..k]) <==> IsFileIn(R, f[..k])
  {
    AncestorIsDir(S, f, f[..k]);
    assert f[..k] !in Landed(R, done);
    CopyStateAt(S, R, md5, done + {f}, done, f[..k]);
    CopyStateAt(S, R, md5, done, done, f[..k]);
  }

  /**
   * Making the parent of the next file `f` from the copy state: it fails exactly on
   * a replica file above the parent, and otherwise reaches the state where `f`'s
   * parents are made.
   */
  lemma ParentStep(S: Tree, R: Tree, md5: Bytes -> Digest, done: set<Path>, f: Path)
    requires WellFormed(S) && done <= SourceFiles(S) && IsFileIn(S, f) && f != []
    ensures var C := CopyState(S, R, md5, done, done);
      ((exists k | 1 <= k < |f| - 1 :: IsFileIn(C, f[..k])) <==> (exists k | 1 <= k < |f| - 1 :: IsFileIn(R, f[..k]))) &&
      WithDirs(C, Prefixes(Parent(f))) == CopyState(S, R, md5, done + {f}, done)
  {
    MakeParentStep(S, R, md5, done, f);
    forall k | 1 <= k < |f|
      ensures IsFileIn(CopyState(S, R, md5, done, done), f[..k]) <==> IsFileIn(R, f[..k])
    {
      ConflictPreserved(S, R, md5, done, f, k);
    }
  }

  /**
   * Comparing and copying the next file `f` once its parents are made: the replica
   * shows `f` as the original replica did, and the outcome reaches the state where
   * `f` is copied.
   */
  lemma FileStep(S: Tree, R: Tree, md5: Bytes -> Digest, done: set<Path>, f: Path)
    requires WellFormed(S) && WellFormed(R) && done <= SourceFiles(S) && IsFileIn(S, f) && f != [] && f !in done
    ensures var C := CopyState(S, R, md5, done + {f}, done);
      (f in C <==> f in R) && (f in R ==> C[f] == R[f]) &&
      (IsDirIn(C, Parent(f)) <==> !Blocked(R, f)) &&
      (Scheduled(S, C, md5, f) <==> Scheduled(S, R, md5, f)) &&
      CopyState(S, R, md5, done + {f}, done + {f}) ==
        if Scheduled(S, R, md5, f) && IsDirIn(C, Parent(f)) then C[f := S[f]] else C
  {
    BeforeCopyAt(S, R, md5, done, f);
    CopyStep(S, R, md5, done, f);
  }

  // ---------------------------------------------------------------------------
  // Deletion phase
  // ---------------------------------------------------------------------------

  /**
   * The bottom-up walk tries to remove `p` from `C`: its path exists in the source
   * under no kind (`os.path.exists` is false), and no removal below it was refused,
   * so a directory is empty by the time it is checked.
   */
  ghost predicate Attempted(S: Tree, C: Tree, L: set<Path>, p: Path) {
    p !in S && forall q | q in C && p < q :: q !in L
  }

  /** The walk removes `p`: it tries, and the operating system does not refuse. */
  ghost predicate Removable(S: Tree, C: Tree, L: set<Path>, p: Path) {
    Attempted(S, C, L, p) && p !in L
  }

  /** `C` after the entries in `P` have been checked by the walk. */
  ghost function Prune(S: Tree, C: Tree, L: set<Path>, P: set<Path>): Tree {
    map p | p in C && !(p in P && Removable(S, C, L, p)) :: C[p]
  }

  /** The replica at the end of the deletion phase. */
  ghost function Pruned(S: Tree, C: Tree, L: set<Path>): Tree {
    Prune(S, C, L, C.Keys)
  }

  /** The entries whose removal the walk tries and the operating system refuses: the errors it logs. */
  ghost function Refusals(S: Tree, C: Tree, L: set<Path>): set<Path> {
    set p | p in C && p in L && Attempted(S, C, L, p)
  }

  /** The replica entries that do not exist in the source. */
  function Orphans(S: Tree, C: Tree): (os: set<Path>)
    ensures forall p | p in os :: p in C && p !in S
    ensures forall p | p in C && p !in S :: p in os
  {
    set p | p in C && p !in S
  }

  /** The directories the walk visits: the root and every directory of `C`. */
  function WalkDirs(C: Tree): (ds: set<Path>)
    ensures [] in ds
    ensures forall d | d in ds :: IsDirIn(C, d)
    ensures forall d | d in C && C[d].Dir? :: d in ds
  {
    {[]} + set d | d in C && C[d].Dir?
  }

  /** The files directly inside `d` (the walk's `filenames`). */
  function FilesIn(C: Tree, d: Path): (fs: set<Path>)
    ensures forall f | f in fs :: f in Listdir(C, d) && C[f].File?
    ensures forall f | f in Listdir(C, d) && C[f].File? :: f in fs
  {
    set f | f in Listdir(C, d) && C[f].File?
  }

  /** The directories directly inside `d` (the walk's `dirnames`). */
  function SubdirsIn(C: Tree, d: Path): (ds: set<Path>)
    ensures forall c | c in ds :: c in Listdir(C, d) && C[c].Dir?
    ensures forall c | c in Listdir(C, d) && C[c].Dir? :: c in ds
  {
    set c | c in Listdir(C, d) && C[c].Dir?
  }

  /** The walk tries to remove a file exactly when its path is absent from the source. */
  lemma FileAttempted(S: Tree, C: Tree, L: set<Path>, f: Path)
    requires WellFormed(C) && IsFileIn(C, f)
    ensures Attempted(S, C, L, f) <==> f !in S
  {
    forall q | q in C && f < q
      ensures false
    {
      NothingBelowFile(C, f, q);
    }
  }

  /** The child of `d` on the way to a strict descendant `q`. */
  lemma ChildTowards(C: Tree, d: Path, q: Path) returns (ch: Path)
    requires WellFormed(C) && q in C && d < q
    ensures ch in Listdir(C, d) && ch <= q
  {
    ch := q[..|d| + 1];
    if ch != q {
      AncestorIsDir(C, q, ch);
    }
    assert Parent(ch) == d;
  }

  /** Below a path absent from a well-formed source, every path is absent. */
  lemma AbsentBelow(S: Tree, p: Path, q: Path)
    requires WellFormed(S) && p != [] && p !in S && p <= q
    ensures q !in S
  {
    if q in S && p != q {
      AncestorIsDir(S, q, p);
    }
  }

  /**
   * The walk tries to remove a directory exactly when its path is absent from the
   * source and every entry it held has been removed first.
   */
  lemma DirAttempted(S: Tree, C: Tree, L: set<Path>, d: Path)
    requires WellFormed(S) && WellFormed(C) && d in C
    ensures Attempted(S, C, L, d) <==>
      d !in S && forall ch | ch in Listdir(C, d) :: Removable(S, C, L, ch)
  {
    EntryHangs(C, d);
    if Attempted(S, C, L, d) {
      forall ch | ch in Listdir(C, d)
        ensures Removable(S, C, L, ch)
      {
        AbsentBelow(S, d, ch);
        forall q | q in C && ch < q
          ensures q !in L
        {
          PrefixTransitive(d, ch, q);
        }
      }
    }
    if d !in S && forall ch | ch in Listdir(C, d) :: Removable(S, C, L, ch) {
      forall q | q in C && d < q
        ensures q !in L
      {
        var ch := ChildTowards(C, d, q);
        if ch != q {
          assert ch < q;
        }
      }
    }
  }

  /** Checking one more entry removes it when it is removable. */
  lemma CheckStep(S: Tree, C: Tree, L: set<Path>, P: set<Path>, p: Path)
    requires p in C && p !in P
    ensures Prune(S, C, L, P + {p}) ==
      if Removable(S, C, L, p) then Prune(S, C, L, P) - {p} else Prune(S, C, L, P)
  {
  }

  /** Once the entries of `d` have all been checked, `d` is empty exactly when all were removable. */
  lemma ListdirAfterPrune(S: Tree, C: Tree, L: set<Path>, P: set<Path>, d: Path)
    requires Listdir(C, d) <= P
    ensures Listdir(Prune(S, C, L, P), d) == {} <==> forall ch | ch in Listdir(C, d) :: Removable(S, C, L, ch)
  {
    var T := Prune(S, C, L, P);
    if exists ch | ch in Listdir(C, d) :: !Removable(S, C, L, ch) {
      var ch :| ch in Listdir(C, d) && !Removable(S, C, L, ch);
      assert ch in Listdir(T, d);
    }
  }

  /** Before any entry is checked, nothing is removed. */
  lemma PruneNothing(S: Tree, C: Tree, L: set<Path>)
    ensures Prune(S, C, L, {}) == C
  {
  }

  /** Recording whether one more checked element `x` belongs to `F`. */
  lemma RecordStep(done: set<Path>, F: set<Path>, found: set<Path>, x: Path, b: bool)
    requires found == done * F && (b <==> x in F)
    ensures (if b then found + {x} else found) == (done + {x}) * F
  {
  }

  /** The refusals met in two groups of checked entries are those of each group. */
  lemma IntersectUnion(A: set<Path>, B: set<Path>, F: set<Path>)
    ensures (A + B) * F == A * F + B * F
  {
  }

  /** Entries not yet checked are still there, unchanged. */
  lemma UncheckedKept(S: Tree, C: Tree, L: set<Path>, P: set<Path>, p: Path)
    requires p !in P
    ensures p in Prune(S, C, L, P) <==> p in C
    ensures p in C ==> Prune(S, C, L, P)[p] == C[p]
  {
  }

  /** Removing an entry that holds nothing keeps a tree well-formed. */
  lemma RemoveLeafWellFormed(t: Tree, p: Path)
    requires WellFormed(t) && p in t && Listdir(t, p) == {}
    ensures WellFormed(t - {p})
  {
    var u := t - {p};
    forall q | InTree(u, q)
      ensures q != [] && IsDirIn(u, Parent(q))
    {
      EntryHangs(t, q);
      if Parent(q) == p {
        assert q in Listdir(t, p);
      }
    }
  }

  /** The entries of a well-formed tree are exactly the children of the directories the walk visits. */
  lemma WalkCoversTree(C: Tree)
    requires WellFormed(C)
    ensures Children(C, WalkDirs(C)) == C.Keys
  {
    forall p | p in C
      ensures p in Children(C, WalkDirs(C))
    {
      EntryHangs(C, p);
    }
  }

  /** The children of the visited directories, grown by one more directory `d`. */
  lemma ChildrenStep(C: Tree, ds: set<Path>, d: Path)
    ensures Children(C, ds + {d}) == Children(C, ds) + FilesIn(C, d) + SubdirsIn(C, d)
  {
  }

  /** The refusals among the children of the visited directories, grown by one more directory `d`. */
  lemma ChildrenRefusalsStep(C: Tree, done: set<Path>, d: Path, F: set<Path>)
    ensures Children(C, done + {d}) * F == Children(C, done) * F + (FilesIn(C, d) + SubdirsIn(C, d)) * F
  {
    ChildrenStep(C, done, d);
    assert Children(C, done + {d}) == Children(C, done) + (FilesIn(C, d) + SubdirsIn(C, d));
    IntersectUnion(Children(C, done), FilesIn(C, d) + SubdirsIn(C, d), F);
  }

  /** A deepest directory of a non-empty set has no strict descendant in it: the walk can always go on. */
  lemma {:induction false} DeepestExists(ds: set<Path>) returns (d: Path)
    requires ds != {}
    ensures d in ds && forall e | e in ds :: |e| <= |d|
    decreases |ds|
  {
    var x :| x in ds;
    if ds == {x} {
      d := x;
    } else {
      var y := DeepestExists(ds - {x});
      d := if |x| <= |y| then y else x;
    }
  }

  /** Counting one more path `p` among those absent from `S`. */
  lemma CountStep(S: Tree, done: set<Path>, p: Path)
    requires p !in done
    ensures |(done + {p}) - S.Keys| == |done - S.Keys| + if p in S then 0 else 1
  {
    var before := done - S.Keys;
    var after := (done + {p}) - S.Keys;
    if p in S {
      assert after == before;
    } else {
      assert p !in before && after == before + {p};
    }
  }

  /** Counting over two disjoint groups of paths adds up. */
  lemma CountSplit(S: Tree, A: set<Path>, B: set<Path>)
    requires A !! B
    ensures |(A + B) - S.Keys| == |A - S.Keys| + |B - S.Keys|
  {
    assert (A + B) - S.Keys == (A - S.Keys) + (B - S.Keys);
  }

  /** Counting the absent children of one more visited directory `d`. */
  lemma CountChildrenStep(S: Tree, C: Tree, done: set<Path>, d: Path)
    requires d !in done
    ensures |Children(C, done + {d}) - S.Keys| ==
      |Children(C, done) - S.Keys| + |FilesIn(C, d) - S.Keys| + |SubdirsIn(C, d) - S.Keys|
  {
    ChildrenStep(C, done, d);
    CountSplit(S, Children(C, done), FilesIn(C, d));
    CountSplit(S, Children(C, done) + FilesIn(C, d), SubdirsIn(C, d));
  }

  /** Once every directory is visited, the absent children are the orphans. */
  lemma CountCovers(S: Tree, C: Tree)
    requires WellFormed(C)
    ensures |Children(C, WalkDirs(C)) - S.Keys| == |Orphans(S, C)|
  {
    WalkCoversTree(C);
    assert Orphans(S, C) == C.Keys - S.Keys;
  }
}

=== FILE: synchronizer.dfy ===
/**
 * `sync_folders` and its helpers: a one-way mirror of a source tree onto a
 * replica tree. The pair of trees is the mutable state; the thread pool is
 * replaced by copies made one after another, since the pool is joined before
 * the deletion phase starts and the copy tasks touch distinct paths.
 */
module Synchronizer {
  import opened Results
  import opened FsTree
  import opened Md5
  import opened SyncSpec

  /** What a `copy_file` task ends with: success, the OSError `shutil.copy2` raised, or the ValueError of the integrity check. */
  datatype CopyOutcome = Copied | CopyFailed(error: FsError) | IntegrityMismatch

  /**
   * What `sync_folders` ends with: it returns, or an exception escapes it. A
   * completed run reports the files whose copy it submitted, the total of the
   * deletion progress bar, and the removals it logged as failed.
   */
  datatype SyncOutcome =
    | Completed(submitted: set<Path>, deletions: nat, refusals: set<Path>)
    | Aborted(error: FsError)

  class Mirror {
    const source: Tree
    /** The digest of a content, as `hashlib.md5(...).hexdigest()` gives it. */
    const md5: Bytes -> Digest
    var replica: Tree
    /** Whether the replica root directory exists; when it does not, neither does anything below it. */
    var replicaRootExists: bool

    ghost predicate Valid()
      reads this
    {
      WellFormed(source) && WellFormed(replica) && (!replicaRootExists ==> replica == map[])
    }

    constructor (source: Tree, replica: Tree, replicaRootExists: bool, md5: Bytes -> Digest)
      requires WellFormed(source) && WellFormed(replica) && (!replicaRootExists ==> replica == map[])
      ensures Valid()
      ensures this.source == source && this.replica == replica && this.md5 == md5
      ensures this.replicaRootExists == replicaRootExists
    {
      this.source := source;
      this.replica := replica;
      this.replicaRootExists := replicaRootExists;
      this.md5 := md5;
    }

    /**
     * `os.makedirs(p)` on a missing replica path: creates every missing prefix as a
     * directory, or raises NotADirectoryError, creating nothing, when a replica
     * file lies on the way.
     */
    method MakeDirs(p: Path) returns (r: Result<(), FsError>)
      requires Valid() && replicaRootExists && p != [] && p !in replica
      modifies this
      ensures Valid() && replicaRootExists
      ensures r.Err? <==> exists k | 1 <= k < |p| :: IsFileIn(old(replica), p[..k])
      ensures r.Err? ==> r.error == NotADirectory && replica == old(replica)
      ensures r.Ok? ==> replica == WithDirs(old(replica), Prefixes(p))
    {
      var t := replica;
      ghost var made: set<Path> := {};
      var k := 1;
      while k <= |p|
        invariant 1 <= k <= |p| + 1
        invariant WellFormed(t) && replicaRootExists && replica == old(replica)
        invariant made <= Prefixes(p) && forall x | x in made :: |x| < k
        invariant t == WithDirs(replica, made)
        invariant forall j | 1 <= j < k :: p[..j] in made
        invariant forall x | x in made :: x in t && t[x].Dir?
        invariant forall j | 1 <= j < k :: !IsFileIn(replica, p[..j])
      {
        var q := p[..k];
        assert Parent(q) == if k == 1 then [] else p[..k - 1];
        if q !in t {
          AddDirWellFormed(t, q);
          t := t[q := Dir];
        } else if t[q].File? {
          MakeDirsBlocked(replica, made, p, k);
          return Err(NotADirectory);
        }
        WithDirsAdd(replica, made, q);
        made := made + {q};
        k := k + 1;
      }
      forall x | x in Prefixes(p)
        ensures x in made
      {
        var j :| 1 <= j <= |p| && x == p[..j];
      }
      replica := t;
      return Ok(());
    }



    /**
     * `copy_file(source_path, replica_path)`: `shutil.copy2` writes the source
     * content at the replica path, raising when the replica parent is missing or is
     * a file; then both digests are recomputed and compared. The copy is faithful,
     * so the integrity check never fails.
     */
    method CopyFile(p: Path) returns (outcome: CopyOutcome)
      requires Valid() && replicaRootExists && IsFileIn(source, p) && p != []
      requires p !in replica || replica[p].File?
      modifies this
      ensures Valid() && replicaRootExists
      ensures outcome != IntegrityMismatch
      ensures outcome == Copied <==> IsDirIn(old(replica), Parent(p))
      ensures outcome.CopyFailed? ==> outcome.error == (if UnderFile(old(replica), p) then NotADirectory else FileNotFound)
      ensures replica == if outcome == Copied then old(replica)[p := source[p]] else old(replica)
    {
      var up := Parent(p);
      if !IsDirIn(replica, up) {
        if exists k | 1 <= k < |p| :: IsFileIn(replica, p[..k]) {
          return CopyFailed(NotADirectory);
        }
        return CopyFailed(FileNotFound);
      }
      PutFileWellFormed(replica, p, source[p].content);
      replica := replica[p := File(source[p].content)];
      EntryNotUnderFile(source, p);
      EntryNotUnderFile(replica, p);
      var sourceDigest := ComputeMd5(md5, source, p);
      var replicaDigest := ComputeMd5(md5, replica, p);
      outcome := if sourceDigest == replicaDigest then Copied else IntegrityMismatch;
    }

    /**
     * Lines 102-106 of the copy phase for source file `f`: the replica parent is made
     * when it does not exist; `os.makedirs` raises when a replica file lies above it.
     */
    method MakeParent(f: Path) returns (r: Result<(), FsError>)
      requires Valid() && replicaRootExists && f != []
      modifies this
      ensures Valid() && replicaRootExists
      ensures r.Err? <==> exists k | 1 <= k < |f| - 1 :: IsFileIn(old(replica), f[..k])
      ensures r.Err? ==> r.error == NotADirectory && replica == old(replica)
      ensures r.Ok? ==> replica == WithDirs(old(replica), Prefixes(Parent(f)))
    {
      var up := Parent(f);
      if up != [] && up !in replica {
        r := MakeDirs(up);
        assert forall k | 1 <= k < |up| :: up[..k] == f[..k];
      } else {
        if up != [] {
          PrefixesPresent(replica, up);
          forall k | 1 <= k < |f| - 1
            ensures !IsFileIn(replica, f[..k])
          {
            assert f[..k] < up;
            AncestorIsDir(replica, up, f[..k]);
          }
        }
        WithDirsNoop(replica, Prefixes(up));
        r := Ok(());
      }
    }

    /**
     * Lines 109-110 of the copy phase for source file `f`, once its parent exists:
     * a copy is submitted when the replica path is absent or holds a file with
     * another digest; `compute_md5` raises on a replica directory. Returns whether
     * a copy was submitted.
     */
    method CompareAndCopy(f: Path) returns (r: Result<bool, FsError>)
      requires Valid() && replicaRootExists && IsFileIn(source, f) && f != []
      modifies this
      ensures Valid() && replicaRootExists
      ensures r.Err? <==> f in old(replica) && old(replica)[f].Dir?
      ensures r.Err? ==> r.error == IsADirectory && replica == old(replica)
      ensures r.Ok? ==> r.value == Scheduled(source, old(replica), md5, f)
      ensures r.Ok? && r.value && IsDirIn(old(replica), Parent(f)) ==> replica == old(replica)[f := source[f]]
      ensures r.Ok? && !(r.value && IsDirIn(old(replica), Parent(f))) ==> replica == old(replica)
    {
      var scheduled := false;
      if f !in replica {
        scheduled := true;
      } else {
        EntryNotUnderFile(source, f);
        EntryNotUnderFile(replica, f);
        var sourceDigest := ComputeMd5(md5, source, f);
        var replicaDigest := ComputeMd5(md5, replica, f);
        if replicaDigest.Err? {
          return Err(replicaDigest.error);
        }
        scheduled := sourceDigest != replicaDigest;
      }
      if scheduled {
        // The task's exception, if any, is never retrieved from its future.
        var _ := CopyFile(f);
      }
      return Ok(scheduled);
    }

    /**
     * One iteration of the copy phase for source file `f`: make its replica parent,
     * then compare and copy. Stated against the copy state of the files handled so far.
     */
    method ProcessFile(f: Path, ghost R: Tree, ghost done: set<Path>) returns (r: Result<bool, FsError>)
      requires Valid() && replicaRootExists && WellFormed(R)
      requires done <= SourceFiles(source) && IsFileIn(source, f) && f !in done
      requires replica == CopyState(source, R, md5, done, done)
      modifies this
      ensures Valid() && replicaRootExists
      ensures r.Err? <==> Conflict(R, f)
      ensures r.Ok? ==> r.value == Scheduled(source, R, md5, f)
      ensures r.Ok? ==> replica == CopyState(source, R, md5, done + {f}, done + {f})
      ensures r.Err? ==>
        replica == CopyState(source, R, md5, done, done) || replica == CopyState(source, R, md5, done + {f}, done)
      ensures R.Keys <= replica.Keys
    {
      EntryHangs(source, f);
      ParentStep(source, R, md5, done, f);
      var made := MakeParent(f);
      if made.Err? {
        return Err(made.error);
      }
      FileStep(source, R, md5, done, f);
      r := CompareAndCopy(f);
    }

    method CopyPhase() returns (r: Result<set<Path>, FsError>, ghost handled: set<Path>, ghost made: set<Path>)
      requires Valid() && replicaRootExists
      modifies this
      ensures Valid() && replicaRootExists
      ensures r.Err? <==> HasConflict(source, old(replica))
      ensures r.Ok? ==> replica == AfterCopy(source, old(replica), md5)
      ensures r.Ok? ==> r.value == ScheduledFiles(source, old(replica), md5)
      ensures r.Err? ==>
        && handled <= made <= SourceFiles(source) && |made - handled| <= 1
        && replica == CopyState(source, old(replica), md5, made, handled)
        && (forall g | g in handled :: !Conflict(old(replica), g))
        && (forall g | g in made - handled :: Conflict(old(replica), g))
      ensures old(replica).Keys <= replica.Keys
    {
      ghost var R := replica;
      CopyStateStart(source, R, md5);
      var todo := SourceFiles(source);
      ghost var files := todo;
      ghost var done: set<Path> := {};
      var submitted: set<Path> := {};
      while todo != {}
        invariant Valid() && replicaRootExists
        invariant files == SourceFiles(source)
        invariant todo + done == files
        invariant todo !! done
        invariant replica == CopyState(source, R, md5, done, done)
        invariant R.Keys <= replica.Keys
        invariant forall g | g in done :: !Conflict(R, g)
        invariant submitted <= done
        invariant forall g | g in done :: g in submitted <==> Scheduled(source, R, md5, g)
        decreases |todo|
      {
        var f :| f in todo;
        var step := ProcessFile(f, R, done);
        if step.Err? {
          handled := done;
          made := if replica == CopyState(source, R, md5, done, done) then done else done + {f};
          return Err(step.error), handled, made;
        }
        SubmitStep(source, R, md5, done, submitted, f);
        if step.value {
          submitted := submitted + {f};
        }
        MoveOne(files, todo, done, f);
        done := done + {f};
        todo := todo - {f};
      }
      assert done == files;
      assert submitted == ScheduledFiles(source, R, md5);
      return Ok(submitted), done, done;
    }

    /**
     * Lines 125-131 for one replica file `f`: when its source path does not exist it
     * is removed, unless the operating system refuses, in which case the error is
     * logged. `C` is the replica as the walk found it, `P` the entries checked
     * before. Returns whether an error was logged.
     */
    method CheckFile(C: Tree, f: Path, refused: set<Path>, ghost P: set<Path>) returns (logged: bool)
      requires Valid() && replicaRootExists && WellFormed(C)
      requires IsFileIn(C, f) && f !in P && replica == Prune(source, C, refused, P)
      modifies this
      ensures Valid() && replicaRootExists
      ensures replica == Prune(source, C, refused, P + {f})
      ensures logged <==> f !in source && f in refused
      ensures logged <==> f in Refusals(source, C, refused)
    {
      FileAttempted(source, C, refused, f);
      CheckStep(source, C, refused, P, f);
      UncheckedKept(source, C, refused, P, f);
      logged := false;
      if f !in source {
        if f in refused {
          logged := true;
        } else {
          FileIsLeaf(replica, f);
          RemoveLeafWellFormed(replica, f);
          replica := replica - {f};
        }
      }
    }

    /**
     * Lines 140-146 for one replica directory `c`: when its source path does not
     * exist and it is empty by now it is removed, unless the operating system
     * refuses, in which case the error is logged. Every entry `c` held was checked
     * before (`P`). Returns whether an error was logged.
     */
    method CheckDir(C: Tree, c: Path, refused: set<Path>, ghost P: set<Path>) returns (logged: bool)
      requires Valid() && replicaRootExists && WellFormed(C)
      requires c in C && C[c].Dir? && c !in P && Listdir(C, c) <= P
      requires replica == Prune(source, C, refused, P)
      modifies this
      ensures Valid() && replicaRootExists
      ensures replica == Prune(source, C, refused, P + {c})
      ensures logged <==> c !in source && c in refused && Listdir(old(replica), c) == {}
      ensures logged <==> c in Refusals(source, C, refused)
    {
      DirAttempted(source, C, refused, c);
      ListdirAfterPrune(source, C, refused, P, c);
      CheckStep(source, C, refused, P, c);
      UncheckedKept(source, C, refused, P, c);
      logged := false;
      if c !in source && Listdir(replica, c) == {} {
        if c in refused {
          logged := true;
        } else {
          RemoveLeafWellFormed(replica, c);
          replica := replica - {c};
        }
      }
    }

    /** Checking one more file `f` after those in `done`, and recording its refusal. */
    method CheckFileStep(C: Tree, f: Path, refused: set<Path>, ghost P: set<Path>, ghost done: set<Path>, failed: set<Path>)
      returns (failed': set<Path>)
      requires Valid() && replicaRootExists && WellFormed(C)
      requires IsFileIn(C, f) && f !in P + done
      requires replica == Prune(source, C, refused, P + done)
      requires failed == done * Refusals(source, C, refused)
      modifies this
      ensures Valid() && replicaRootExists
      ensures replica == Prune(source, C, refused, P + (done + {f}))
      ensures failed' == (done + {f}) * Refusals(source, C, refused)
    {
      var logged := CheckFile(C, f, refused, P + done);
      RecordStep(done, Refusals(source, C, refused), failed, f, logged);
      failed' := if logged then failed + {f} else failed;
      UnionRegroup(P, done, f);
    }

    /**
     * Lines 119-131 of the deletion walk at directory `d`: every file directly in
     * `d` is checked in turn; a refused removal does not stop the walk. Returns the
     * files whose removal was refused.
     */
    method RemoveOrphanFiles(C: Tree, d: Path, refused: set<Path>, ghost P: set<Path>) returns (failed: set<Path>)
      requires Valid() && replicaRootExists && WellFormed(C)
      requires replica == Prune(source, C, refused, P) && FilesIn(C, d) !! P
      modifies this
      ensures Valid() && replicaRootExists
      ensures replica == Prune(source, C, refused, P + FilesIn(C, d))
      ensures failed == FilesIn(C, d) * Refusals(source, C, refused)
    {
      var todo := FilesIn(C, d);
      ghost var all := todo;
      ghost var done: set<Path> := {};
      ghost var F := Refusals(source, C, refused);
      failed := {};
      while todo != {}
        invariant Valid() && replicaRootExists
        invariant todo + done == all && todo !! done
        invariant replica == Prune(source, C, refused, P + done)
        invariant failed == done * F
        decreases |todo|
      {
        var f :| f in todo;
        failed := CheckFileStep(C, f, refused, P, done, failed);
        MoveOne(all, todo, done, f);
        done := done + {f};
        todo := todo - {f};
      }
    }

    /** Checking one more subdirectory `c` after those in `done`, and recording its refusal. */
    method CheckDirStep(C: Tree, c: Path, refused: set<Path>, ghost P: set<Path>, ghost done: set<Path>, failed: set<Path>)
      returns (failed': set<Path>)
      requires Valid() && replicaRootExists && WellFormed(C)
      requires c in C && C[c].Dir? && c !in P + done && Listdir(C, c) <= P
      requires replica == Prune(source, C, refused, P + done)
      requires failed == done * Refusals(source, C, refused)
      modifies this
      ensures Valid() && replicaRootExists
      ensures replica == Prune(source, C, refused, P + (done + {c}))
      ensures failed' == (done + {c}) * Refusals(source, C, refused)
    {
      var logged := CheckDir(C, c, refused, P + done);
      RecordStep(done, Refusals(source, C, refused), failed, c, logged);
      failed' := if logged then failed + {c} else failed;
      UnionRegroup(P, done, c);
    }

    /**
     * Lines 133-146 of the deletion walk at directory `d`: every directory directly
     * in `d` is checked in turn, after everything below it; a refused removal does
     * not stop the walk. Returns the directories whose removal was refused.
     */
    method RemoveEmptyOrphanDirs(C: Tree, d: Path, refused: set<Path>, ghost P: set<Path>) returns (failed: set<Path>)
      requires Valid() && replicaRootExists && WellFormed(C)
      requires replica == Prune(source, C, refused, P) && SubdirsIn(C, d) !! P
      requires forall c | c in SubdirsIn(C, d) :: Listdir(C, c) <= P
      modifies this
      ensures Valid() && replicaRootExists
      ensures replica == Prune(source, C, refused, P + SubdirsIn(C, d))
      ensures failed == SubdirsIn(C, d) * Refusals(source, C, refused)
    {
      var todo := SubdirsIn(C, d);
      ghost var all := todo;
      ghost var done: set<Path> := {};
      ghost var F := Refusals(source, C, refused);
      failed := {};
      while todo != {}
        invariant Valid() && replicaRootExists
        invariant todo + done == all && todo !! done
        invariant replica == Prune(source, C, refused, P + done)
        invariant failed == done * F
        decreases |todo|
      {
        var c :| c in todo;
        failed := CheckDirStep(C, c, refused, P, done, failed);
        MoveOne(all, todo, done, c);
        done := done + {c};
        todo := todo - {c};
      }
    }

    /**
     * One step of the bottom-up walk at directory `d`, once every directory below
     * it is visited (`done`): its orphan files, then its empty orphan
     * subdirectories. Returns the refusals met among its entries.
     */
    method VisitDir(C: Tree, d: Path, refused: set<Path>, ghost done: set<Path>) returns (failed: set<Path>)
      requires Valid() && replicaRootExists && WellFormed(C)
      requires d in WalkDirs(C) && d !in done
      requires forall e | e in WalkDirs(C) && d < e :: e in done
      requires replica == Prune(source, C, refused, Children(C, done))
      modifies this
      ensures Valid() && replicaRootExists
      ensures replica == Prune(source, C, refused, Children(C, done + {d}))
      ensures failed == (FilesIn(C, d) + SubdirsIn(C, d)) * Refusals(source, C, refused)
    {
      ghost var P := Children(C, done);
      var fileFailures := RemoveOrphanFiles(C, d, refused, P);
      forall c | c in SubdirsIn(C, d)
        ensures Listdir(C, c) <= P + FilesIn(C, d)
      {
        assert c in WalkDirs(C) && d < c;
      }
      var dirFailures := RemoveEmptyOrphanDirs(C, d, refused, P + FilesIn(C, d));
      ChildrenStep(C, done, d);
      IntersectUnion(FilesIn(C, d), SubdirsIn(C, d), Refusals(source, C, refused));
      failed := fileFailures + dirFailures;
    }

    /**
     * The deletion phase of `sync_folders`: `os.walk(replica, topdown=False)` visits
     * every directory after all the directories below it, removing orphan files
     * and then empty orphan directories. `refused` is the set of paths whose
     * removal the operating system refuses. Returns the refusals it logged.
     */
    method DeletePhase(refused: set<Path>) returns (failed: set<Path>)
      requires Valid() && replicaRootExists
      modifies this
      ensures Valid() && replicaRootExists
      ensures replica == Pruned(source, old(replica), refused)
      ensures failed == Refusals(source, old(replica), refused)
    {
      var C := replica;
      var todo := WalkDirs(C);
      ghost var dirs := todo;
      ghost var done: set<Path> := {};
      ghost var F := Refusals(source, C, refused);
      failed := {};
      PruneNothing(source, C, refused);
      while todo != {}
        invariant Valid() && replicaRootExists && WellFormed(C)
        invariant dirs == WalkDirs(C)
        invariant todo + done == dirs && todo !! done
        invariant replica == Prune(source, C, refused, Children(C, done))
        invariant failed == Children(C, done) * F
        decreases |todo|
      {
        ghost var deepest := DeepestExists(todo);
        var d :| d in todo && forall e | e in todo :: !(d < e);
        var visited := VisitDir(C, d, refused, done);
        ChildrenRefusalsStep(C, done, d, F);
        failed := failed + visited;
        MoveOne(dirs, todo, done, d);
        done := done + {d};
        todo := todo - {d};
      }
      WalkCoversTree(C);
      assert done == dirs;
    }

    /**
     * One of the inner loops of `count_deletions`: the number of `entries` whose
     * source path does not exist.
     */
    method CountMissing(entries: set<Path>) returns (n: nat)
      ensures n == |entries - source.Keys|
    {
      var todo := entries;
      ghost var done: set<Path> := {};
      n := 0;
      while todo != {}
        invariant todo + done == entries && todo !! done
        invariant n == |done - source.Keys|
        decreases |todo|
      {
        var p :| p in todo;
        CountStep(source, done, p);
        if p !in source {
          n := n + 1;
        }
        MoveOne(entries, todo, done, p);
        done := done + {p};
        todo := todo - {p};
      }
    }

    /**
     * `count_deletions(source, replica)`: walks every replica directory and counts
     * its files and directories whose source path does not exist, whatever its kind.
     */
    method CountDeletions() returns (count: nat)
      requires Valid()
      ensures count == |Orphans(source, replica)|
    {
      var todo := if replicaRootExists then WalkDirs(replica) else {};
      ghost var dirs := todo;
      ghost var done: set<Path> := {};
      count := 0;
      while todo != {}
        invariant todo + done == dirs && todo !! done
        invariant count == |Children(replica, done) - source.Keys|
        decreases |todo|
      {
        var d :| d in todo;
        var files := CountMissing(FilesIn(replica, d));
        var subdirs := CountMissing(SubdirsIn(replica, d));
        CountChildrenStep(source, replica, done, d);
        count := count + files + subdirs;
        MoveOne(dirs, todo, done, d);
        done := done + {d};
        todo := todo - {d};
      }
      if replicaRootExists {
        CountCovers(source, replica);
      } else {
        assert Orphans(source, replica) == {};
      }
    }

    /**
     * `sync_folders(source, replica)`: creates the replica root when it is missing,
     * runs the copy phase, counts the pending deletions and runs the bottom-up
     * deletion walk. An exception of the copy phase escapes before anything is
     * deleted. `refused` is the set of replica paths whose removal the operating
     * system refuses.
     */
    method SyncFolders(refused: set<Path>) returns (outcome: SyncOutcome, ghost handled: set<Path>, ghost made: set<Path>)
      requires Valid()
      modifies this
      ensures Valid() && replicaRootExists
      ensures outcome.Aborted? <==> HasConflict(source, old(replica))
      ensures outcome.Aborted? ==> old(replica).Keys <= replica.Keys
      ensures outcome.Aborted? ==>
        && handled <= made <= SourceFiles(source) && |made - handled| <= 1
        && replica == CopyState(source, old(replica), md5, made, handled)
        && (forall g | g in handled :: !Conflict(old(replica), g))
        && (forall g | g in made - handled :: Conflict(old(replica), g))
      ensures outcome.Completed? ==>
        var copied := AfterCopy(source, old(replica), md5);
        && replica == Pruned(source, copied, refused)
        && outcome.submitted == ScheduledFiles(source, old(replica), md5)
        && outcome.deletions == |Orphans(source, copied)|
        && outcome.refusals == Refusals(source, copied, refused)
    {
      if !replicaRootExists {
        replicaRootExists := true;
      }
      var copy;
      copy, handled, made := CopyPhase();
      if copy.Err? {
        return Aborted(copy.error), handled, made;
      }
      var deletions := CountDeletions();
      var refusals := DeletePhase(refused);
      return Completed(copy.value, deletions, refusals), handled, made;
    }
  }
}
